=== FILE: README.md ===
# YLF Downloader core, modelled in Dafny

This project models the logic of `YLF_Downloader.py` that does not depend on the GUI
toolkit or on the download library:

- **Input helpers** (`UrlInput`): `normalize_input_url` trims the text and strips one outer
  `{...}` pair. It then collapses whitespace runs into single spaces.
  `is_supported_url` accepts a URL whose lower-cased, port-stripped host is an allow-listed
  domain or a subdomain of one.
- **Display helpers** (`Format`): `format_duration` splits seconds into hours, minutes and
  seconds and zero-pads them. `safe_truncate` bounds a text's length with a trailing `…`.
- **Geometry parsing** (`Geometry`): `parse_geometry_xy` reads the window position out of a
  Tk geometry string `WxH+X+Y`. Python's `int()` on the two fields is written out.
- **Rate limiter** (`RateLimit`): `RateLimitManager` is a timed state machine with the
  fields last download time, download count, hourly reset time, pacing delay and backoff
  deadline. It is a value type `LimiterState` with transition functions, and a class
  `RateLimitManager` whose methods update those fields in place.
- **Single-flight scheduler** (`Scheduler`): the busy flag `is_downloading`, the pending
  retry timer `_retry_after_id`, the rate limiter and the FIFO queue `_ui_queue`.
  - The worker thread hands UI events to the main loop through that queue.
  - `on_drop`, `one_click_action` and `start_download` make the admit / throttle / reject
    decision. The queue handler and `reset_ui` clear the flag. The worker's `except`/`finally`
    blocks classify how a download ended.
  - Each entry point is a function `Sched -> Sched`, and the lemmas about behaviour are
    stated over these functions. The class `Scheduler.Downloader` performs the same steps
    in place on its fields. Each method that stands for a whole entry point ensures
    `State() == F(old(State()), ...)` for the matching function `F`. The three pieces of the
    worker's end (`SuccessTail`, `ExceptBlock`, `FinallyBlock`) each state their update of
    the old fields outright. `EndWorker` runs the try block's tail and ends as `WorkerTail`;
    `FinallyBlock` ends as `Finally`; `FinishWorker`, which runs the two in turn, ends as `Worker`.
  - A worker's end is two steps: `WorkerTail` (the try block's tail or the `except` block,
    which ends the download) and `Finally` (the `finally` block, which reads the flag as it
    stands when it runs). `Worker` is the schedule where the `finally` block runs right after
    the tail, before the main loop handles anything.

The invariant `Scheduler.ValidSched` is kept by every entry point, with a worker's end taken
as `Worker`, that is with its `finally` block run right after the try block's tail (see
"## Findings" for what happens otherwise):

- A worker runs only while the flag is set and nothing queued would clear it.
- A set flag without a worker has a clearing event waiting in the queue.
- A clear flag has no worker.
- At most one retry timer is pending, and it is the one `_retry_after_id` names.
- The limiter's own invariant holds.

Outside inputs are parameters:

- **Time:** one clock, `now: real` seconds. The source reads both `time.time()` and
  `datetime.now()`; here they are one clock.
- **Randomness:** `random.randint(1, 6)` is a parameter `r` with `1 <= r <= 6`.
- **`urlparse`:** a function parameter `string -> Option<UrlParts>`. `None` stands for
  `urlparse` raising. The `Downloader` class keeps it as a constant.
- **Clipboard:** an `Option<string>`. `None` stands for `clipboard_get` raising.
- **Worker try block:** the events it put (`body`) and how the download ended (`Outcome`).

## Model

| member | source | states |
|---|---|---|
| Strings.TrimLeft | YLF_Downloader.py:87 | the left half of `str.strip`: the result is a suffix of the input that starts with a non-whitespace character, and everything dropped is whitespace |
| Strings.TrimRight | YLF_Downloader.py:87 | the right half of `str.strip`: the result is a prefix that ends with a non-whitespace character, and everything dropped is whitespace |
| Strings.Strip | YLF_Downloader.py:87 | `str.strip`: the result is no longer than the input and neither of its ends is whitespace |
| Strings.StripUnchanged | YLF_Downloader.py:89 | stripping a text whose ends are not whitespace leaves it unchanged |
| Strings.StripKeepsText | YLF_Downloader.py:87 | `strip` removes only whitespace: the non-whitespace characters stay, in order |
| Strings.Find | YLF_Downloader.py:145-146 | `str.find(c, from)` is -1 when `c` does not occur at or after `from`, otherwise the first such index |
| Strings.SplitOn | YLF_Downloader.py:153 | `str.split(sep)` gives at least one part, and no part contains `sep` |
| Strings.SplitOnNoSeparator | YLF_Downloader.py:101 | a text without the separator splits into itself alone |
| Strings.SplitOnFirst | YLF_Downloader.py:101 | splitting `a + sep + b`, where `a` has no `sep`, gives `a` followed by the parts of `b` |
| Strings.Contains | YLF_Downloader.py:733 | the substring test `sub in s`; stated by ContainsIff |
| Strings.ContainsIff | YLF_Downloader.py:733 | the substring test `sub in s` holds exactly when `sub` occurs at some index of `s` |
| Strings.NonBlank | YLF_Downloader.py:153 | the list comprehension keeps only parts whose `strip()` is non-empty, and keeps no more parts than it was given |
| Strings.NonBlankSingle | YLF_Downloader.py:153 | a single part is kept exactly when its `strip()` is non-empty |
| Strings.NonBlankCons | YLF_Downloader.py:153 | the filter decides the first part on its own, then filters the rest |
| Strings.NonBlankAppend | YLF_Downloader.py:153 | filtering `a + b` is filtering `a`, then `b`: nothing is dropped that is not blank, nothing is reordered |
| Digits.NatToDecimal | YLF_Downloader.py:129-131 | the decimal digits of a natural number: non-empty, all digits, one digit exactly when the number is below 10, and a leading `0` exactly when the number is 0, so no leading zero |
| Digits.DecimalRoundTrip | YLF_Downloader.py:129-131 | reading the decimal digits of `n` back gives `n` |
| Digits.Pad2 | YLF_Downloader.py:129-131 | the `:02d` format: at least two digits, exactly two below 100, the plain decimal digits from 10 on, reading back to the number |
| Digits.IntToString | YLF_Downloader.py:522 | `str()` of an integer (a `-` before the digits of a negative one) is non-empty |
| UrlInput.Words | YLF_Downloader.py:90 | `str.split()` without arguments yields only non-empty, whitespace-free words |
| UrlInput.JoinSpace | YLF_Downloader.py:90 | `" ".join(words)`; stated by JoinCollapsed and WordsOfJoin |
| UrlInput.JoinCollapsed | YLF_Downloader.py:90 | `" ".join` of words has no whitespace at its ends, no whitespace other than single spaces, and is empty exactly when there are no words |
| UrlInput.WordsOfJoin | YLF_Downloader.py:90 | splitting `" ".join(ws)` gives back the words `ws` |
| UrlInput.JoinOfWords | YLF_Downloader.py:90 | a text that is already collapsed equals `" ".join(text.split())` |
| UrlInput.JoinOfWordsKeepsText | YLF_Downloader.py:90 | `" ".join(s.split())` removes only whitespace |
| UrlInput.NormalizeInputUrl | YLF_Downloader.py:84-91 | the empty input gives `""`; every result has no leading or trailing whitespace and words separated by single spaces |
| UrlInput.NormalizeUnbracedKeepsText | YLF_Downloader.py:84-91 | without an outer brace pair, normalizing keeps every non-whitespace character in order |
| UrlInput.HasOuterBraces | YLF_Downloader.py:88 | the test `s.startswith("{") and s.endswith("}")`; stated by NormalizeBracedKeepsText |
| UrlInput.Inner | YLF_Downloader.py:89 | the slice `s[1:-1]`; stated by NormalizeBracedKeepsText |
| UrlInput.NormalizeBracedKeepsText | YLF_Downloader.py:88-89 | with an outer brace pair, exactly that one pair is removed: the input's non-whitespace text is `{`, then the result's, then `}` |
| UrlInput.NormalizeFixpoint | YLF_Downloader.py:84-91 | a collapsed text without outer braces is left unchanged |
| UrlInput.NormalizeNotIdempotent | YLF_Downloader.py:88-89 | normalizing `{{x}}` gives `{x}`, and normalizing again gives `x`, so the function is not idempotent |
| UrlInput.BracedWord | YLF_Downloader.py:88-89 | a single braced word normalizes to its inside |
| UrlInput.Lower | YLF_Downloader.py:101 | `str.lower` keeps the length and leaves no ASCII capital; each capital becomes its small letter, the Kelvin sign becomes `k`, and every other character is kept |
| UrlInput.LowerIdempotent | YLF_Downloader.py:101 | lower-casing twice is lower-casing once |
| UrlInput.LowerAppend | YLF_Downloader.py:101 | lower-casing works piece by piece: `(a + b).lower() == a.lower() + b.lower()` |
| UrlInput.LowerKeepsColons | YLF_Downloader.py:101 | lower-casing neither adds nor removes a colon, so the port separator stays where it was |
| UrlInput.HostOf | YLF_Downloader.py:101 | the host `netloc.lower().split(":")[0]` is the lower-cased text before the first colon: a prefix of the lower-cased netloc, ended by the netloc's first colon or by its end, with no colon and no upper-case ASCII letter |
| UrlInput.HostIgnoresCaseAndPort | YLF_Downloader.py:101 | the host is the same for an upper- or lower-case netloc and with or without a `:port` suffix |
| UrlInput.OneOfSeven | YLF_Downloader.py:106-114 | the seven `host_is` alternatives hold exactly when one of the seven listed domains matches |
| UrlInput.HostAllowedIff | YLF_Downloader.py:103-114 | a host is allowed exactly when it equals an allow-listed domain or ends with `"." + domain` |
| UrlInput.HostIs | YLF_Downloader.py:103-104 | `host_is`; stated by SubdomainAccepted, DotBoundary and LookalikeRejected |
| UrlInput.HostAllowed | YLF_Downloader.py:106-114 | the seven `host_is` tests; stated by OneOfSeven and HostAllowedIff |
| UrlInput.IsSupportedUrl | YLF_Downloader.py:94-116 | `is_supported_url`; stated by SupportedUrlIff |
| UrlInput.SupportedUrlIff | YLF_Downloader.py:94-116 | `is_supported_url` holds exactly when the URL is non-empty, parses, has a non-empty scheme and netloc, and its host matches an allow-listed domain; it is false in every other case, a raising `urlparse` included |
| UrlInput.SubdomainAccepted | YLF_Downloader.py:103-104 | every subdomain of a matching host matches the same domain |
| UrlInput.SubdomainExample | YLF_Downloader.py:103-114 | `m.youtube.com` is allowed |
| UrlInput.DotBoundary | YLF_Downloader.py:103-104 | a host that ends in the domain without a dot just before it does not match |
| UrlInput.LookalikeRejected | YLF_Downloader.py:103-104 | `notyoutube.com` does not match `youtube.com` |
| Format.TruncateToInt | YLF_Downloader.py:123 | `int()` of a float truncates toward zero |
| Format.ClockFields | YLF_Downloader.py:126-128 | hours·3600 + minutes·60 + seconds = n, with minutes and seconds in 0..59, and hours > 0 exactly when n ≥ 3600 |
| Format.Clock | YLF_Downloader.py:126-131 | the `HH:MM:SS` / `MM:SS` text; stated by ClockWithHours, ClockWithoutHours and DurationRoundTrip |
| Format.FormatDuration | YLF_Downloader.py:119-124 | `None` and a value `int()` rejects both give `"N/A"` |
| Format.ClockWithHours | YLF_Downloader.py:129-130 | from one hour on, the text has three fields (two-digit minutes and seconds), and reading it back gives n |
| Format.ClockWithoutHours | YLF_Downloader.py:131 | below one hour, the text is `MM:SS` with two-digit fields, and reading it back gives n |
| Format.DurationRoundTrip | YLF_Downloader.py:119-131 | for n ≥ 0 the text is `HH:MM:SS` exactly when n ≥ 3600 and `MM:SS` otherwise; every field has at least two digits, minutes and seconds exactly two; reading it back gives n |
| Format.SliceStop | YLF_Downloader.py:141 | the slice stop `max_chars - 1` is clamped into the text's length, as Python does |
| Format.SafeTruncate | YLF_Downloader.py:138-141 | `""` stays `""`; a text that fits is returned unchanged; a longer one keeps its first `max_chars - 1` characters plus `…`, exactly `max_chars` long |
| Format.TruncateIdempotent | YLF_Downloader.py:138-141 | for `max_chars ≥ 1` the result always fits, and truncating it again changes nothing |
| Geometry.RemoveUnderscores | YLF_Downloader.py:157-158 | the digits `int()` reads once underscores are dropped contain no underscore |
| Geometry.RemoveUnderscoresSingle | YLF_Downloader.py:157-158 | a single character is dropped exactly when it is `_` |
| Geometry.RemoveUnderscoresAppend | YLF_Downloader.py:157-158 | dropping underscores works piece by piece, so every other character stays, in order |
| Geometry.NumeralDigits | YLF_Downloader.py:157-158 | a numeral with its underscores dropped is a non-empty digit string |
| Geometry.Unsigned | YLF_Downloader.py:157-158 | an unsigned field is accepted exactly when it is digits with single underscores between them, and its value is non-negative |
| Geometry.GroupedNumeral | YLF_Downloader.py:157-158 | two digit groups joined by one `_` form a numeral `int()` accepts |
| Geometry.UnsignedGrouped | YLF_Downloader.py:157-158 | the unsigned value of two digit groups joined by `_` is the value of the digits without it |
| Geometry.PyIntGrouped | YLF_Downloader.py:157-158 | `int("1_000")`-style input: `int(a + "_" + b)` is the number the digits `a + b` denote |
| Geometry.UnsignedOfDecimal | YLF_Downloader.py:157-158 | the decimal digits of `n` read back as `n` |
| Geometry.PyIntOfString | YLF_Downloader.py:157-158 | `int(str(x)) == x` for every integer, negatives included |
| Geometry.PyInt | YLF_Downloader.py:157-158 | Python's `int()` on a field; stated by PyIntOfString and PyIntGrouped |
| Geometry.ReplaceDash | YLF_Downloader.py:152 | `replace("-", "+-")`; stated by ReplaceDashAppend and FieldsOfPosition |
| Geometry.Fields | YLF_Downloader.py:153 | the non-blank `+`-separated fields; stated by FieldsTwo and FieldsOfPosition |
| Geometry.FieldsTwo | YLF_Downloader.py:153 | `"+" + a + "+" + b`, each field possibly led by a further `+`, has exactly the fields `a` and `b` |
| Geometry.ReplaceDashAppend | YLF_Downloader.py:152 | `replace("-", "+-")` acts on each piece of a concatenation separately |
| Geometry.ParsePosition | YLF_Downloader.py:151-159 | a position parses only when at least two non-blank `+`-separated fields remain after the dash replacement, and x and y are `int()` of the first two |
| Geometry.ParseGeometryXY | YLF_Downloader.py:144-160 | a position is found only when the text contains a `+` or a `-` |
| Geometry.NoSignNoPosition | YLF_Downloader.py:145-150 | with no `+` anywhere and no `-` after index 0 the result is `(None, None)` |
| Geometry.CutAtFirstPlus | YLF_Downloader.py:145-151 | when the first `+` starts the position, parsing the whole text is parsing from there |
| Geometry.FieldsOfPosition | YLF_Downloader.py:152-153 | the fields of `+{x}+{y}` after the dash replacement are exactly `str(x)` and `str(y)` |
| Geometry.PositionRoundTrip | YLF_Downloader.py:151-159 | the position `+{x}+{y}` parses to `(x, y)` |
| Geometry.GeometryRoundTrip | YLF_Downloader.py:144-160 | `parse_geometry_xy("WxH+{x}+{y}")` is `(x, y)` for all integers x and y, negatives included |
| RateLimit.Initial | YLF_Downloader.py:167-172 | a fresh limiter has no last download, reset time or backoff, a count of 0 and a 3-second delay |
| RateLimit.CheckAt | YLF_Downloader.py:174-183 | an active backoff refuses with wait `backoff_until - now`, and it is checked first; a download is allowed exactly when no backoff is active and there is no prior attempt or `current_delay` has elapsed; an allowed verdict waits 0 and a refusal waits a positive time, which ends at `last + current_delay` when no backoff is active |
| RateLimit.AfterAttempt | YLF_Downloader.py:185-192 | an attempt sets the last download time to `now` and the delay to the drawn `r`, leaves the backoff alone, and leaves `now` inside the counting window |
| RateLimit.AfterPunish | YLF_Downloader.py:194-195 | the backoff deadline becomes `now + max(5, seconds)`, so at least `now + 5` and at least `now + seconds`, and no other field changes |
| RateLimit.Stats | YLF_Downloader.py:197-198 | `get_stats`; stated by AttemptValid and CountWithinHour |
| RateLimit.InitialValid | YLF_Downloader.py:167-172 | the fresh limiter satisfies the limiter invariant |
| RateLimit.FirstDownloadAllowed | YLF_Downloader.py:174-178 | a fresh limiter allows a download with wait 0 |
| RateLimit.AttemptValid | YLF_Downloader.py:185-192 | an attempt keeps the invariant and the count is at least 1; inside the window the count goes up by exactly one; with no window or an expired one the count is 1 and the window ends an hour from `now` |
| RateLimit.PunishValid | YLF_Downloader.py:194-195 | a penalty keeps the invariant and the count |
| RateLimit.BackoffBlocks | YLF_Downloader.py:174-195 | throughout a penalty every check refuses, with a wait that shrinks as time passes |
| RateLimit.BackoffAtLeastFive | YLF_Downloader.py:194-195 | for five seconds after any penalty, whatever its argument, checks refuse until the deadline |
| RateLimit.SpacingAfterAttempt | YLF_Downloader.py:174-192 | with no backoff, the next download is allowed exactly when the drawn delay `r` has passed, and a refusal waits the rest of it |
| RateLimit.AfterAttempts | YLF_Downloader.py:185-192 | after a series of attempts the last download time is the last attempt's time |
| RateLimit.CountWithinHour | YLF_Downloader.py:185-198 | when the window had expired before the first of k attempts and all k fall within the hour that follows, `get_stats` reports k and the window ends an hour after the first |
| RateLimit.RateLimitManager.constructor | YLF_Downloader.py:167-172 | `__init__` leaves the initial limiter state |
| RateLimit.RateLimitManager.CanDownload | YLF_Downloader.py:174-183 | `can_download` returns the verdict of `CheckAt` for the current fields, a zero wait when allowed and a positive one when not |
| RateLimit.RateLimitManager.RecordDownloadAttempt | YLF_Downloader.py:185-192 | the fields become `AfterAttempt` of their old values |
| RateLimit.RateLimitManager.PunishBackoff | YLF_Downloader.py:194-195 | the fields become `AfterPunish` of their old values |
| RateLimit.RateLimitManager.GetStats | YLF_Downloader.py:197-198 | `get_stats` returns the download count |
| Scheduler.InitialSched | YLF_Downloader.py:226-233 | the window starts idle, with no worker, an empty queue and no timer |
| Scheduler.FlagAfterNoSetTrue | YLF_Downloader.py:297-305 | a queue with no `set_downloading(True)` leaves the flag set exactly when it was set and nothing in the queue clears it |
| Scheduler.FlagAfterAppend | YLF_Downloader.py:255-262 | handling `p + q` is handling `p` and then `q` |
| Scheduler.LastSetDownloadingWins | YLF_Downloader.py:304-305 | after a queue ending in `set_downloading(v)`, the flag is `v` |
| Scheduler.ClearTwice | YLF_Downloader.py:304-305 | `set_downloading(False)` twice leaves the flag False, the same as once |
| Scheduler.ResetUiClears | YLF_Downloader.py:297-298 | a queue ending in `reset_ui` leaves the flag False |
| Scheduler.Put | YLF_Downloader.py:252-253 | `ui` appends the event at the back of the queue |
| Scheduler.Handle | YLF_Downloader.py:264-309 | handling one event updates the flag as `set_downloading`/`reset_ui` say and records the event as handled |
| Scheduler.HandleAllEffect | YLF_Downloader.py:255-262 | handling a queue records every event in order, sets the flag as the events say, empties the entry only if a `reset_ui` is among them, and changes nothing else |
| Scheduler.HandleAll | YLF_Downloader.py:255-262 | handling queued events one by one; stated by HandleAllEffect and FlagAfterAppend |
| Scheduler.Tick | YLF_Downloader.py:255-262 | one run of `process_ui_queue`; stated by TickDrains, PutThenTick and TickValid |
| Scheduler.TickDrains | YLF_Downloader.py:255-262 | a tick handles every queued event in the order it was put and leaves the queue empty; nothing but the flag, the entry and the handled log changes |
| Scheduler.PutThenTick | YLF_Downloader.py:252-262 | two events put one after the other are handled in that order by the next tick |
| Scheduler.ResetUiNow | YLF_Downloader.py:782-792 | `reset_ui` empties the entry and leaves the flag False, without touching the worker, the queue or the limiter |
| Scheduler.RemoveTimer | YLF_Downloader.py:599-604 | `after_cancel` drops exactly the timers with that handle |
| Scheduler.CancelRetry | YLF_Downloader.py:599-604 | cancelling forgets the handle and no timer with it remains |
| Scheduler.RetrySeconds | YLF_Downloader.py:608 | `int(max(1, wait))` is at least 1 and is the wait rounded down when the wait is at least 1 |
| Scheduler.ScheduleRetry | YLF_Downloader.py:608-612 | a refusal adds one timer of `wait_s * 1000` ms that will retry with the same link, and keeps its handle |
| Scheduler.MarkedBusy | YLF_Downloader.py:645-648 | the first half of admitting: the flag goes up and the PROCESSING button is queued, and nothing else changes |
| Scheduler.Launch | YLF_Downloader.py:657-659 | the second half: defined only once the flag is up, it records the attempt and starts the worker on the URL, and nothing else changes |
| Scheduler.Admit | YLF_Downloader.py:645-659 | admitting sets the flag, queues the PROCESSING button, records the attempt and starts the worker on the URL |
| Scheduler.Start | YLF_Downloader.py:636-659 | `start_download` changes nothing while busy; otherwise it either changes nothing or admits the normalized entry text when that text is supported |
| Scheduler.CancelPending | YLF_Downloader.py:599-604 | the first step of `one_click_action` forgets the retry handle and changes no flag, worker, queue, entry or limiter |
| Scheduler.Submit | YLF_Downloader.py:620-627 | unsupported content changes nothing |
| Scheduler.LinkSource | YLF_Downloader.py:615-618 | the text `one_click_action` reads is the link when it is non-empty and the clipboard otherwise |
| Scheduler.LinkOverridesClipboard | YLF_Downloader.py:615-618 | with a non-empty link the clipboard plays no part, whatever it holds and whether reading it raises |
| Scheduler.EmptyLinkReadsClipboard | YLF_Downloader.py:615-618 | once the limiter allows it, an empty link acts exactly like no link: the clipboard is read |
| Scheduler.RetryFires | YLF_Downloader.py:611 | the retry timer calling `one_click_action` with the same link; stated by FireRetryValid and RefusalSchedulesRetry |
| Scheduler.Click | YLF_Downloader.py:592-631 | `one_click_action` changes nothing while busy |
| Scheduler.Drop | YLF_Downloader.py:581-587 | `on_drop` changes nothing while busy |
| Scheduler.Closing | YLF_Downloader.py:854-860 | `on_closing` forgets the retry handle |
| Scheduler.SuccessEvents | YLF_Downloader.py:718-727 | the success tail puts five events, the fourth being `reset_ui(reset_duration=False)` |
| Scheduler.ErrorProgress | YLF_Downloader.py:733-738 | the error progress is at 0 in the error colour, and outside the 429 case its text is the error truncated to 120 characters |
| Scheduler.ErrorEvents | YLF_Downloader.py:729-745 | the except block puts seven events on a 429 and six otherwise; the fifth from the end is the progress label `ErrorProgress(msg)` and the one before last is `set_downloading(False)` |
| Scheduler.ErrorEventsLayout | YLF_Downloader.py:729-745 | the except block's other events in their places: the error logged cut to 900 characters first, the backoff log second exactly on a 429, then the N/A duration, the PASTE button and, last, the error flash |
| Scheduler.Is429 | YLF_Downloader.py:733 | the 429 test on the error text; stated by Worker, TooManyRequestsBacksOff and OtherErrorNoBackoff |
| Scheduler.FinallyEvents | YLF_Downloader.py:747-750 | the finally block's events; stated by Finally |
| Scheduler.WorkerTail | YLF_Downloader.py:718-746 | the try block's tail or the except block ends the download, leaving the flag to the queue; the events the try block put stay in front, in order; only a 429 error changes the limiter, which then becomes `punish_backoff(600)` of the old one; the timers, the entry and the handled log are untouched |
| Scheduler.Finally | YLF_Downloader.py:747-750 | with the flag set nothing changes; with it clear, exactly the PASTE button and `set_downloading(False)` are queued and nothing else changes |
| Scheduler.Worker | YLF_Downloader.py:718-750 | with the finally block run right after the tail, the worker ends and leaves the flag to the queue; the events the try block put stay in front, in order; only a 429 error changes the limiter, which then becomes `punish_backoff(600)` of the old one; the timers, the entry and the handled log are untouched |
| Scheduler.InitialSchedValid | YLF_Downloader.py:226-233 | the initial state satisfies the scheduler invariant |
| Scheduler.FlagTracksWorker | YLF_Downloader.py:645-659 | in a valid state, the flag after the queued events are handled is set exactly when a worker runs |
| Scheduler.NoClearAppend | YLF_Downloader.py:252-253 | a queue has no clearing event exactly when neither of its halves has one, and likewise for `set_downloading(True)` |
| Scheduler.TickValid | YLF_Downloader.py:255-262 | a tick keeps the invariant and afterwards the flag is set exactly when a worker runs |
| Scheduler.RemoveTimerOfSingle | YLF_Downloader.py:599-604 | cancelling the only pending timer leaves none |
| Scheduler.CancelValid | YLF_Downloader.py:599-604 | cancelling keeps the invariant and leaves no timer pending |
| Scheduler.CancelPendingValid | YLF_Downloader.py:599-604 | before the rate-limit check every pending retry is gone |
| Scheduler.ClosingValid | YLF_Downloader.py:854-860 | closing keeps the invariant and leaves no timer and no handle |
| Scheduler.AdmitValid | YLF_Downloader.py:645-659 | admitting from idle keeps the invariant |
| Scheduler.StartValid | YLF_Downloader.py:636-659 | `start_download` keeps the invariant |
| Scheduler.SubmitValid | YLF_Downloader.py:620-627 | the content step keeps the invariant |
| Scheduler.RetryValid | YLF_Downloader.py:606-612 | scheduling a retry when none is pending keeps the invariant, so at most one retry is ever pending |
| Scheduler.ClickValid | YLF_Downloader.py:592-631 | `one_click_action` keeps the invariant |
| Scheduler.DropValid | YLF_Downloader.py:581-587 | `on_drop` keeps the invariant |
| Scheduler.FireRetryValid | YLF_Downloader.py:611 | a retry timer firing keeps the invariant |
| Scheduler.FinallySilent | YLF_Downloader.py:747-750 | run right after the try block's tail of a valid state, the finally block changes nothing, because the flag still reads set |
| Scheduler.WorkerTailValid | YLF_Downloader.py:718-746 | the end of the try block keeps the invariant: the queue now holds an event that clears the flag |
| Scheduler.TailClears | YLF_Downloader.py:718-745 | both the success tail and the except block queue a clearing event and no `set_downloading(True)` |
| Scheduler.WorkerValid | YLF_Downloader.py:729-750 | a worker ending keeps the invariant |
| Scheduler.LateFinallyBreaksSingleFlight | YLF_Downloader.py:645-659 | as written: after a download ends without a 429, a tick, then the finally block, then a click admitted on a supported link, the next tick leaves a worker running with the flag False, so the invariant is broken |
| Scheduler.EndedThenLateFinally | YLF_Downloader.py:742-750 | once the tail's events are handled, the flag is False with no worker, and the finally block then queues the PASTE button and another `set_downloading(False)` |
| Scheduler.IdleClickAdmits | YLF_Downloader.py:645-659 | on an idle scheduler that the limiter allows, a click with a non-empty link whose normalized forms are supported sets the flag, starts the worker on the twice-normalized link and queues the PROCESSING button |
| Scheduler.StaleClearAfterClick | YLF_Downloader.py:645-659 | a click admitted behind the stale PASTE button and `set_downloading(False)` has the next tick clear the flag while its worker runs |
| Scheduler.StaleTick | YLF_Downloader.py:255-262 | a tick over the stale PASTE button, `set_downloading(False)` and the PROCESSING button leaves a worker running with the flag False, outside the invariant |
| Scheduler.StaleClearWins | YLF_Downloader.py:304-305 | handling the stale `set_downloading(False)` ahead of the PROCESSING button leaves the flag False |
| Scheduler.WorkerThenTickIdle | YLF_Downloader.py:718-750 | once a worker has ended, the next tick leaves the flag False and no worker running |
| Scheduler.BusyChangesNothing | YLF_Downloader.py:581-594 | while busy, `on_drop`, `one_click_action` and `start_download` change nothing: no limiter call, no retry, no worker |
| Scheduler.RefusalSchedulesRetry | YLF_Downloader.py:606-612 | a refusal leaves exactly one pending timer of at least 1000 ms, with `int(max(1, wait)) * 1000` ms, the same link and its handle stored; the limiter, queue, entry and worker are untouched, so no URL check and no recorded attempt happen |
| Scheduler.UnsupportedRecordsNothing | YLF_Downloader.py:620-623 | an unsupported URL only cancels the pending retry: no recorded attempt, no flag, no worker |
| Scheduler.ClipboardFailureRecordsNothing | YLF_Downloader.py:614-631 | a raising `clipboard_get` records no attempt, starts no worker and queues nothing |
| Scheduler.AdmittedStarts | YLF_Downloader.py:592-659 | an allowed, supported link sets the flag, records exactly one attempt, queues the PROCESSING button and starts the worker on the twice-normalized link |
| Scheduler.SecondNormalizationHarmless | YLF_Downloader.py:640 | `start_download` normalizing the entry again changes nothing unless the once-normalized text still has outer braces |
| Scheduler.TooManyRequestsBacksOff | YLF_Downloader.py:733-736 | a 429 error sets the backoff to `now + 600` and refuses every check in the next 600 seconds |
| Scheduler.OtherErrorNoBackoff | YLF_Downloader.py:737-738 | any other error leaves the limiter alone, and the worker's queue holds the progress label whose text is the error truncated to at most 120 characters |
| Scheduler.Downloader.constructor | YLF_Downloader.py:226-233 | a new window is in the initial scheduler state with a fresh limiter |
| Scheduler.Downloader.Ui | YLF_Downloader.py:252-253 | the fields become `Put` of their old values |
| Scheduler.Downloader.HandleUiEvent | YLF_Downloader.py:264-309 | the fields become `Handle` of their old values |
| Scheduler.Downloader.ResetUi | YLF_Downloader.py:782-792 | the fields become `ResetUiNow` of their old values |
| Scheduler.Downloader.ProcessUiQueue | YLF_Downloader.py:255-262 | the loop takes events from the front until the queue is empty, and the fields end as `Tick` of their old values |
| Scheduler.Downloader.StartDownload | YLF_Downloader.py:636-659 | the fields become `Start` of their old values |
| Scheduler.Downloader.AdmitDownload | YLF_Downloader.py:645-659 | runs MarkBusy and then LaunchWorker; the fields become `Admit` of their old values |
| Scheduler.Downloader.MarkBusy | YLF_Downloader.py:645-648 | the fields become `MarkedBusy` of their old values |
| Scheduler.Downloader.LaunchWorker | YLF_Downloader.py:657-659 | callable only with the flag up, so no attempt is recorded before it is set; the fields become `Launch` of their old values |
| Scheduler.Downloader.OneClickAction | YLF_Downloader.py:592-631 | the fields become `Click` of their old values |
| Scheduler.Downloader.CancelPendingRetry | YLF_Downloader.py:599-604 | the fields become `CancelPending` of their old values |
| Scheduler.Downloader.SubmitContent | YLF_Downloader.py:620-627 | the fields become `Submit` of their old values |
| Scheduler.Downloader.OnDrop | YLF_Downloader.py:581-587 | the fields become `Drop` of their old values |
| Scheduler.Downloader.FireRetry | YLF_Downloader.py:611 | the fields become `RetryFires` of their old values |
| Scheduler.Downloader.FinishWorker | YLF_Downloader.py:718-750 | runs EndWorker then FinallyBlock; the fields become `Worker` of their old values |
| Scheduler.Downloader.EndWorker | YLF_Downloader.py:718-746 | the try block's tail or the except block, and the download over; the fields become `WorkerTail` of their old values |
| Scheduler.Downloader.SuccessTail | YLF_Downloader.py:718-727 | the success events, with the count `get_stats` read, are put on the queue |
| Scheduler.Downloader.ExceptBlock | YLF_Downloader.py:729-745 | the except events are put on the queue, and only a 429 calls `punish_backoff(600)` |
| Scheduler.Downloader.FinallyBlock | YLF_Downloader.py:747-750 | the finally block queues the PASTE button and `set_downloading(False)` only when the flag reads False; the fields become `Finally` of their old values |
| Scheduler.Downloader.OnClosing | YLF_Downloader.py:854-860 | the fields become `Closing` of their old values |

## Left out

- Widgets and their `configure` calls are not modelled: `create_widgets`, the geometry calls of `toggle_mode`, `log_console`, the progress bar and the labels. A queued event that only repaints is kept as data and appended to `handled` when it is processed.
- The progress percentage `int(clamp(val) * 100)` is left out, because it is floating-point display arithmetic.
- The flash animation (`start_mini_flash`, `stop_mini_flash` and their 600 ms and 60 s timers) and the 2-second DONE restore timer in `reset_ui` are left out. They are display timers that touch no scheduler state.
- The download itself through `yt_dlp` and the progress hook `progress_hook_threadsafe` are outside the model. The worker is given the events its try block put and how the download ended.
- `_auto_copy_caption_mainthread`, the clipboard writes, `webbrowser.open`, `resource_path` and `ensure_folder` are operating-system calls, so they are not modelled.
- Window-position persistence (`save_window_position`, `load_window_position`) is file I/O and is not modelled. Only `parse_geometry_xy` is.
- Threads are not modelled, and neither is the thread safety of `queue.Queue`. Each entry point, the try block's tail (`WorkerTail`) and the `finally` block (`Finally`) are each one atomic step; the worker's progress events before the tail are the `body` it is given.
  - The invariant `ValidSched` is proved for `Worker`, where the `finally` block runs right after the tail. The order in which the main loop handles the tail's events before the `finally` block runs breaks it; "## Findings" exhibits that schedule.
- Scheduler.WorkerTail: its own contract states the limiter, the untouched fields and that the try block's events stay in front. It does not list the events queued after them. Those are the events of SuccessEvents or ErrorEvents, whose contracts and ErrorEventsLayout place them. Which of them clear the flag is stated by TailClears, and the invariant they keep by WorkerTailValid. That the error label is queued is stated by OtherErrorNoBackoff.
- Scheduler.Worker: its own contract states the limiter, the untouched fields and that the try block's events stay in front. It does not list the events queued after them. Those are the events of SuccessEvents or ErrorEvents, whose contracts and ErrorEventsLayout place them. Which of them clear the flag is stated by TailClears, and the invariant they keep by WorkerValid. That the error label is queued is stated by OtherErrorNoBackoff.
- Scheduler.Click: its own contract states only the busy case. The throttle, reject and admit cases are stated by RefusalSchedulesRetry, UnsupportedRecordsNothing, ClipboardFailureRecordsNothing and AdmittedStarts.
- The `except Exception` of `one_click_action` is modelled only for a raising `clipboard_get`. `normalize_input_url`, `is_supported_url` and `start_download` cannot raise in this model.
- UrlInput.Lower: lower-casing covers ASCII and the Kelvin sign U+212A (the only non-ASCII character whose lower-case is a single ASCII letter). Every other character is left unchanged.
- `urlparse` is a parameter, not a model of Python's URL parser.
- Geometry.Unsigned: Python's `int()` accepts Unicode decimal digits from other scripts. The model accepts only ASCII digits.
- `format_duration` on a string argument is modelled only through its outcome: an integer value, or a value `int()` rejects.
- The two clocks `time.time()` and `datetime.now()` are one clock `now` in seconds. Any drift between the two clocks is not modelled.

## Findings

| source | as written | input that shows it | evidently intended | confidence | as-written member | corrected member |
|---|---|---|---|---|---|---|
| YLF_Downloader.py:747-750 | the `finally` block of `download_video_worker` runs on the worker thread and queues `set_downloading(False)` whenever it reads `is_downloading` as False, which it does once the main loop has handled the `set_downloading(False)` that `reset_ui` event (line 724) or the except block (line 742) queued | a download ends without a 429 error; a tick handles its events; the `finally` block runs; a click on a supported link is admitted (lines 645-659); the next tick handles the stale `set_downloading(False)` and clears the flag while the new worker runs, so a further click starts a second worker | a worker's clean-up never clears the flag of a later download; the flag stays set while any worker runs | not executed | Scheduler.Finally, Scheduler.LateFinallyBreaksSingleFlight | Scheduler.Worker, Scheduler.WorkerValid |

=== FILE: Digits.dfy ===
/**
 * Decimal rendering and reading of integers: Python's str(n) and f"{n:02d}" on
 * non-negative integers, and the digit strings they are read back from.
 */
module Digits {
  import opened Wrappers

  predicate IsDigit(c: char) {
    '0' <= c <= '9'
  }

  predicate AllDigits(s: string) {
    forall k :: 0 <= k < |s| ==> IsDigit(s[k])
  }

  function DigitChar(d: nat): (c: char)
    requires d < 10
    ensures IsDigit(c)
  {
    ('0' as int + d) as char
  }

  function DigitValue(c: char): (d: nat)
    requires IsDigit(c)
    ensures d < 10 && DigitChar(d) == c
  {
    c as int - '0' as int
  }

  /** str(n) for n >= 0: at least one digit, a single digit exactly below ten, and no leading zero. */
  function NatToDecimal(n: nat): (s: string)
    ensures |s| >= 1 && AllDigits(s)
    ensures |s| == 1 <==> n < 10
    ensures s[0] == '0' <==> n == 0
  {
    if n < 10 then [DigitChar(n)] else NatToDecimal(n / 10) + [DigitChar(n % 10)]
  }

  /** The number a string of decimal digits denotes (leading zeros allowed, "" denotes 0). */
  function DecimalValue(s: string): nat
    requires AllDigits(s)
  {
    if s == [] then 0 else DecimalValue(s[..|s| - 1]) * 10 + DigitValue(s[|s| - 1])
  }

  /** Reading back str(n) gives n. */
  lemma {:induction false} DecimalRoundTrip(n: nat)
    ensures DecimalValue(NatToDecimal(n)) == n
  {
    if n >= 10 {
      var s := NatToDecimal(n);
      assert s[..|s| - 1] == NatToDecimal(n / 10);
      DecimalRoundTrip(n / 10);
    }
  }

  /** A leading zero does not change the value of a digit string. */
  lemma {:induction false} LeadingZero(s: string)
    requires AllDigits(s)
    ensures AllDigits("0" + s) && DecimalValue("0" + s) == DecimalValue(s)
  {
    if s != [] {
      assert ("0" + s)[..|"0" + s| - 1] == "0" + s[..|s| - 1];
      LeadingZero(s[..|s| - 1]);
    }
  }

  /** Python's f"{n}": a minus sign before the digits of a negative number. */
  function IntToString(x: int): (s: string)
    ensures |s| >= 1
  {
    if x < 0 then "-" + NatToDecimal(-x) else NatToDecimal(x)
  }

  /** f"{n:02d}" for n >= 0: zero-padded to at least two digits, denoting n. */
  function Pad2(n: nat): (s: string)
    ensures |s| >= 2 && AllDigits(s)
    ensures n < 100 ==> |s| == 2
    ensures n >= 10 ==> s == NatToDecimal(n)
    ensures DecimalValue(s) == n
  {
    DecimalRoundTrip(n);
    if n < 10 then
      LeadingZero(NatToDecimal(n));
      "0" + NatToDecimal(n)
    else
      NatToDecimal(n)
  }

  /** Reads a non-empty string of decimal digits; anything else is None. */
  function DecimalOf(s: string): (r: Option<nat>)
    ensures r.Some? <==> s != [] && AllDigits(s)
  {
    if s != [] && AllDigits(s) then Some(DecimalValue(s)) else None
  }
}

=== FILE: Format.dfy ===
/**
 * Display helpers: format_duration (h/m/s decomposition with zero padding)
 * and safe_truncate (bounded truncation with an ellipsis).
 */
module Format {
  import opened Wrappers
  import opened Strings
  import opened Digits

  /** What reaches format_duration: None, an int, a float, or a value int() rejects (a NaN, an infinity, a non-numeric string). */
  datatype DurationValue = Missing | IntValue(n: int) | FloatValue(x: real) | NotConvertible

  /** Python's int() on a float: truncation toward zero. */
  function TruncateToInt(x: real): (n: int)
    ensures x >= 0.0 ==> n as real <= x < n as real + 1.0
    ensures x < 0.0 ==> n as real - 1.0 < x <= n as real
  {
    if x >= 0.0 then x.Floor else -((-x).Floor)
  }

  /**
   * hours = n // 3600, minutes = (n % 3600) // 60, secs = n % 60 (floor division
   * and modulo with positive divisors, as in Python): they recompose n, with
   * minutes and seconds in 0..59.
   */
  function ClockFields(n: int): (f: (int, nat, nat))
    ensures f.0 * 3600 + f.1 * 60 + f.2 == n
    ensures f.1 < 60 && f.2 < 60
    ensures f.0 > 0 <==> n >= 3600
  {
    var r := n % 3600;
    var m := r / 60;
    var s := r % 60;
    assert r == m * 60 + s;
    assert n == (n / 3600) * 3600 + r;
    assert n == (n / 3600 * 60 + m) * 60 + s;
    ModOfMultiplePlus(n / 3600 * 60 + m, s, n);
    (n / 3600, m, n % 60)
  }

  /** The remainder of k * 60 + s by 60 is s when 0 <= s < 60. */
  lemma ModOfMultiplePlus(k: int, s: int, n: int)
    requires 0 <= s < 60 && n == k * 60 + s
    ensures n % 60 == s
  {
  }

  /** The text for a whole number of seconds: "HH:MM:SS" when there are hours, otherwise "MM:SS". */
  function Clock(n: int): string {
    var f := ClockFields(n);
    if f.0 > 0 then Pad2(f.0) + ":" + Pad2(f.1) + ":" + Pad2(f.2) else Pad2(f.1) + ":" + Pad2(f.2)
  }

  /** format_duration */
  function FormatDuration(d: DurationValue): (r: string)
    ensures d == Missing || d == NotConvertible ==> r == "N/A"
  {
    match d
    case Missing => "N/A"
    case NotConvertible => "N/A"
    case IntValue(n) => Clock(n)
    case FloatValue(x) => Clock(TruncateToInt(x))
  }

  /** Reads "MM:SS" or "HH:MM:SS" (fields of decimal digits) back into seconds. */
  function ParseClock(s: string): Option<int> {
    var f := SplitOn(s, ':');
    if |f| == 2 && DecimalOf(f[0]).Some? && DecimalOf(f[1]).Some? then
      Some(DecimalOf(f[0]).value * 60 + DecimalOf(f[1]).value)
    else if |f| == 3 && DecimalOf(f[0]).Some? && DecimalOf(f[1]).Some? && DecimalOf(f[2]).Some? then
      Some(DecimalOf(f[0]).value * 3600 + DecimalOf(f[1]).value * 60 + DecimalOf(f[2]).value)
    else
      None
  }

  lemma NoColonInDigits(s: string)
    requires AllDigits(s)
    ensures ':' !in s
  {
  }

  lemma SplitColonTwo(x: string, y: string)
    requires ':' !in x && ':' !in y
    ensures SplitOn(x + ":" + y, ':') == [x, y]
  {
    assert x + ":" + y == x + [':'] + y;
    SplitOnFirst(x, ':', y);
    SplitOnNoSeparator(y, ':');
  }

  lemma SplitColonThree(x: string, y: string, z: string)
    requires ':' !in x && ':' !in y && ':' !in z
    ensures SplitOn(x + ":" + y + ":" + z, ':') == [x, y, z]
  {
    assert x + ":" + y + ":" + z == x + [':'] + (y + ":" + z);
    SplitOnFirst(x, ':', y + ":" + z);
    SplitColonTwo(y, z);
  }

  /** The fields of two zero-padded numbers joined by ':'. */
  lemma SplitTwo(a: nat, b: nat)
    ensures SplitOn(Pad2(a) + ":" + Pad2(b), ':') == [Pad2(a), Pad2(b)]
  {
    NoColonInDigits(Pad2(a));
    NoColonInDigits(Pad2(b));
    SplitColonTwo(Pad2(a), Pad2(b));
  }

  /** The fields of three zero-padded numbers joined by ':'. */
  lemma SplitThree(a: nat, b: nat, c: nat)
    ensures SplitOn(Pad2(a) + ":" + Pad2(b) + ":" + Pad2(c), ':') == [Pad2(a), Pad2(b), Pad2(c)]
  {
    NoColonInDigits(Pad2(a));
    NoColonInDigits(Pad2(b));
    NoColonInDigits(Pad2(c));
    SplitColonThree(Pad2(a), Pad2(b), Pad2(c));
  }

  /** Zero-padded numbers joined by ':' read back to the seconds they stand for. */
  lemma {:induction false} ParseThree(a: nat, b: nat, c: nat)
    ensures ParseClock(Pad2(a) + ":" + Pad2(b) + ":" + Pad2(c)) == Some(a * 3600 + b * 60 + c)
  {
    SplitThree(a, b, c);
  }

  lemma {:induction false} ParseTwo(b: nat, c: nat)
    ensures ParseClock(Pad2(b) + ":" + Pad2(c)) == Some(b * 60 + c)
  {
    SplitTwo(b, c);
  }

  lemma {:induction false} ClockTextWithHours(n: int)
    requires n >= 3600
    ensures ClockFields(n).0 >= 1
    ensures Clock(n) == Pad2(ClockFields(n).0) + ":" + Pad2(ClockFields(n).1) + ":" + Pad2(ClockFields(n).2)
  {
  }

  /** With at least one hour: three fields, reading back to n. */
  lemma {:induction false} ClockWithHours(n: int)
    requires n >= 3600
    ensures var f := SplitOn(Clock(n), ':');
      |f| == 3 && |f[0]| >= 2 && |f[1]| == 2 && |f[2]| == 2 && ParseClock(Clock(n)) == Some(n)
  {
    var c := ClockFields(n);
    var text := Clock(n);
    ClockTextWithHours(n);
    assert text == Pad2(c.0) + ":" + Pad2(c.1) + ":" + Pad2(c.2);
    SplitThree(c.0, c.1, c.2);
    ParseThree(c.0, c.1, c.2);
  }

  lemma {:induction false} ClockTextWithoutHours(n: int)
    requires 0 <= n < 3600
    ensures ClockFields(n).0 == 0
    ensures Clock(n) == Pad2(ClockFields(n).1) + ":" + Pad2(ClockFields(n).2)
  {
  }

  /** Under an hour: two fields, reading back to n. */
  lemma {:induction false} ClockWithoutHours(n: int)
    requires 0 <= n < 3600
    ensures var f := SplitOn(Clock(n), ':');
      |f| == 2 && |f[0]| == 2 && |f[1]| == 2 && ParseClock(Clock(n)) == Some(n)
  {
    var c := ClockFields(n);
    ClockTextWithoutHours(n);
    SplitTwo(c.1, c.2);
    ParseTwo(c.1, c.2);
  }

  /**
   * For a non-negative number of seconds the text has three fields exactly when
   * there is at least one hour, every field has at least two digits (minutes
   * and seconds exactly two), and reading the fields back gives the number.
   */
  lemma DurationRoundTrip(n: nat)
    ensures var f := SplitOn(FormatDuration(IntValue(n)), ':');
      && (|f| == 3 <==> n >= 3600)
      && (|f| == 2 <==> n < 3600)
      && |f[0]| >= 2 && |f[|f| - 2]| == 2 && |f[|f| - 1]| == 2
      && ParseClock(FormatDuration(IntValue(n))) == Some(n)
  {
    if n >= 3600 {
      ClockWithHours(n);
    } else {
      ClockWithoutHours(n);
    }
  }

  /** Python's clamping of a slice's stop index k for a sequence of length n (negative k counts from the end). */
  function SliceStop(k: int, n: nat): (j: nat)
    ensures j <= n
    ensures 0 <= k <= n ==> j == k
  {
    if k < 0 then (if n + k < 0 then 0 else n + k) else if k > n then n else k
  }

  /**
   * safe_truncate: the empty text stays empty; text that fits is unchanged;
   * longer text keeps its first max_chars - 1 characters and gains an
   * ellipsis, so it is exactly max_chars long.
   */
  function SafeTruncate(text: string, maxChars: int): (r: string)
    ensures text == [] ==> r == []
    ensures maxChars >= 1 && |text| <= maxChars ==> r == text
    ensures maxChars >= 1 && |text| > maxChars ==>
      |r| == maxChars && r[..maxChars - 1] == text[..maxChars - 1] && r[maxChars - 1] == '\U{2026}'
  {
    if text == [] then ""
    else if |text| <= maxChars then text
    else text[..SliceStop(maxChars - 1, |text|)] + "\U{2026}"
  }

  /** For a positive bound the result always fits, and truncating again changes nothing. */
  lemma TruncateIdempotent(text: string, maxChars: int)
    requires maxChars >= 1
    ensures |SafeTruncate(text, maxChars)| <= maxChars
    ensures SafeTruncate(SafeTruncate(text, maxChars), maxChars) == SafeTruncate(text, maxChars)
  {
  }
}

=== FILE: Geometry.dfy ===
/**
 * parse_geometry_xy: reads the window position out of a Tk geometry string
 * such as "540x440+120+80", with Python's int() for the two numbers.
 */
module Geometry {
  import opened Wrappers
  import opened Strings
  import opened Digits

  /** Decimal digits with single underscores between them, as int() accepts ("1_000"). */
  predicate Numeral(s: string)
    decreases |s|
  {
    && s != [] && IsDigit(s[0])
    && (|s| == 1 || Numeral(s[1..]) || (s[1] == '_' && Numeral(s[2..])))
  }

  /** The string with its underscores dropped. */
  function RemoveUnderscores(s: string): (r: string)
    ensures |r| <= |s| && '_' !in r
  {
    if s == [] then [] else (if s[0] == '_' then [] else [s[0]]) + RemoveUnderscores(s[1..])
  }

  /** One character is kept exactly when it is not an underscore. */
  lemma RemoveUnderscoresSingle(c: char)
    ensures RemoveUnderscores([c]) == if c == '_' then [] else [c]
  {
    assert [c][1..] == [];
  }

  /** Dropping underscores works piece by piece, keeping the order of the other characters. */
  lemma {:induction false} RemoveUnderscoresAppend(a: string, b: string)
    ensures RemoveUnderscores(a + b) == RemoveUnderscores(a) + RemoveUnderscores(b)
    decreases |a|
  {
    if a != [] {
      assert (a + b)[0] == a[0] && (a + b)[1..] == a[1..] + b;
      RemoveUnderscoresAppend(a[1..], b);
    } else {
      assert a + b == b;
    }
  }

  lemma {:induction false} NumeralDigits(s: string)
    requires Numeral(s)
    ensures RemoveUnderscores(s) != [] && AllDigits(RemoveUnderscores(s))
    decreases |s|
  {
    if |s| > 1 {
      if Numeral(s[1..]) {
        NumeralDigits(s[1..]);
      } else {
        NumeralDigits(s[2..]);
        assert s[1..][1..] == s[2..];
      }
    }
  }

  lemma {:induction false} RemoveNoUnderscores(s: string)
    requires AllDigits(s)
    ensures RemoveUnderscores(s) == s
  {
    if s != [] {
      RemoveNoUnderscores(s[1..]);
    }
  }

  /** Every non-empty digit string is a numeral. */
  lemma {:induction false} DigitsAreNumeral(s: string)
    requires s != [] && AllDigits(s)
    ensures Numeral(s)
    decreases |s|
  {
    if |s| > 1 {
      DigitsAreNumeral(s[1..]);
    }
  }

  /** The value of an unsigned numeral, or None when int() would raise. */
  function Unsigned(s: string): (r: Option<int>)
    ensures r.Some? <==> Numeral(s)
    ensures r.Some? ==> r.value >= 0
  {
    if Numeral(s) then
      NumeralDigits(s);
      Some(DecimalValue(RemoveUnderscores(s)))
    else None
  }

  /** Python's int(s) on a str in base 10; None where it raises ValueError. */
  function PyInt(s: string): Option<int> {
    var t := Strip(s);
    if t != [] && t[0] == '-' then
      match Unsigned(t[1..])
      case Some(n) => Some(-n)
      case None => None
    else if t != [] && t[0] == '+' then Unsigned(t[1..])
    else Unsigned(t)
  }

  /** An underscore between two digit groups is a numeral int() accepts, and it is ignored. */
  lemma UnsignedGrouped(a: string, b: string)
    requires a != [] && AllDigits(a) && b != [] && AllDigits(b)
    ensures Unsigned(a + "_" + b) == Some(DecimalValue(a + b))
  {
    GroupedNumeral(a, b);
    GroupUnderscoreDropped(a, b);
  }

  lemma {:induction false} GroupUnderscoreDropped(a: string, b: string)
    requires AllDigits(a) && AllDigits(b)
    ensures RemoveUnderscores(a + "_" + b) == a + b
    decreases |a|
  {
    var s := a + "_" + b;
    if a == [] {
      assert s[0] == '_' && s[1..] == b;
      RemoveNoUnderscores(b);
    } else {
      assert s[0] == a[0] && s[1..] == a[1..] + "_" + b;
      assert IsDigit(a[0]);
      GroupUnderscoreDropped(a[1..], b);
      assert [a[0]] + (a[1..] + b) == a + b;
    }
  }

  lemma {:induction false} GroupedNumeral(a: string, b: string)
    requires a != [] && AllDigits(a) && b != [] && AllDigits(b)
    ensures Numeral(a + "_" + b)
    decreases |a|
  {
    var s := a + "_" + b;
    if |a| == 1 {
      assert s[1] == '_' && s[2..] == b;
      DigitsAreNumeral(b);
    } else {
      GroupedNumeral(a[1..], b);
      assert s[1..] == a[1..] + "_" + b;
    }
  }

  /** int() of two digit groups joined by an underscore reads them as one number: int("1_000") == int("1000"). */
  lemma PyIntGrouped(a: string, b: string)
    requires a != [] && AllDigits(a) && b != [] && AllDigits(b)
    ensures PyInt(a + "_" + b) == Some(DecimalValue(a + b))
  {
    var s := a + "_" + b;
    assert s[0] == a[0] && s[|s| - 1] == b[|b| - 1];
    StripUnchanged(s);
    UnsignedGrouped(a, b);
  }

  /** A digit string is a numeral int() accepts, with its decimal value. */
  lemma UnsignedOfDigits(d: string)
    requires d != [] && AllDigits(d)
    ensures Unsigned(d) == Some(DecimalValue(d))
  {
    DigitsAreNumeral(d);
    RemoveNoUnderscores(d);
  }

  /** str(x) has no surrounding whitespace. */
  lemma StripOfInt(x: int)
    ensures Strip(IntToString(x)) == IntToString(x)
  {
    var s := IntToString(x);
    var d := NatToDecimal(if x < 0 then -x else x);
    assert s[|s| - 1] == d[|d| - 1];
    assert IsDigit(d[0]) && IsDigit(d[|d| - 1]);
    StripUnchanged(s);
  }

  /** str(n) for n >= 0 reads back as n. */
  lemma UnsignedOfDecimal(n: nat)
    ensures Unsigned(NatToDecimal(n)) == Some(n)
  {
    UnsignedOfDigits(NatToDecimal(n));
    DecimalRoundTrip(n);
  }

  /** Without surrounding whitespace or a sign, int() reads the numeral as it stands. */
  lemma PyIntUnsigned(s: string)
    requires Strip(s) == s && s != [] && IsDigit(s[0])
    ensures PyInt(s) == Unsigned(s)
  {
  }

  /** A leading '-' negates the numeral after it. */
  lemma PyIntNegative(s: string, n: int)
    requires Strip(s) == s && s != [] && s[0] == '-' && Unsigned(s[1..]) == Some(n)
    ensures PyInt(s) == Some(-n)
  {
  }

  /** str(x) for negative x: a '-' and then the numeral of -x. */
  lemma {:induction false} NegativeParts(x: int)
    requires x < 0
    ensures IntToString(x)[0] == '-' && Unsigned(IntToString(x)[1..]) == Some(-x)
  {
    assert IntToString(x)[1..] == NatToDecimal(-x);
    UnsignedOfDecimal(-x);
  }

  /** str(x) for x >= 0: the numeral of x. */
  lemma {:induction false} NonNegativeParts(x: int)
    requires x >= 0
    ensures IsDigit(IntToString(x)[0]) && Unsigned(IntToString(x)) == Some(x)
  {
    UnsignedOfDecimal(x);
  }

  lemma {:induction false} PyIntOfNegative(x: int)
    requires x < 0
    ensures PyInt(IntToString(x)) == Some(x)
  {
    var s := IntToString(x);
    StripOfInt(x);
    NegativeParts(x);
    assert Strip(s) == s && s != [] && s[0] == '-' && Unsigned(s[1..]) == Some(-x);
    PyIntNegative(s, -x);
  }

  lemma {:induction false} PyIntOfNonNegative(x: int)
    requires x >= 0
    ensures PyInt(IntToString(x)) == Some(x)
  {
    StripOfInt(x);
    NonNegativeParts(x);
    PyIntUnsigned(IntToString(x));
  }

  /** int(str(x)) == x */
  lemma {:induction false} PyIntOfString(x: int)
    ensures PyInt(IntToString(x)) == Some(x)
  {
    if x < 0 {
      PyIntOfNegative(x);
    } else {
      PyIntOfNonNegative(x);
    }
  }

  /** pos.replace("-", "+-") */
  function ReplaceDash(s: string): string {
    if s == [] then [] else (if s[0] == '-' then "+-" else [s[0]]) + ReplaceDash(s[1..])
  }

  lemma {:induction false} ReplaceDashAppend(a: string, b: string)
    ensures ReplaceDash(a + b) == ReplaceDash(a) + ReplaceDash(b)
  {
    if a == [] {
      assert a + b == b;
    } else {
      assert (a + b)[1..] == a[1..] + b;
      ReplaceDashAppend(a[1..], b);
    }
  }

  lemma {:induction false} ReplaceDashDigits(s: string)
    requires AllDigits(s)
    ensures ReplaceDash(s) == s
  {
    if s != [] {
      ReplaceDashDigits(s[1..]);
    }
  }

  /** The non-blank '+'-separated fields of s. */
  function Fields(s: string): seq<string> {
    NonBlank(SplitOn(s, '+'))
  }

  /** The position part of parse_geometry_xy: the first two non-blank fields, read with int(). */
  function ParsePosition(pos: string): (r: Option<(int, int)>)
    ensures r.Some? ==> |Fields(ReplaceDash(pos))| >= 2
    ensures r.Some? ==> PyInt(Fields(ReplaceDash(pos))[0]) == Some(r.value.0)
    ensures r.Some? ==> PyInt(Fields(ReplaceDash(pos))[1]) == Some(r.value.1)
  {
    var parts := Fields(ReplaceDash(pos));
    if |parts| < 2 then None
    else
      match PyInt(parts[0])
      case None => None
      case Some(x) =>
        match PyInt(parts[1])
        case None => None
        case Some(y) => Some((x, y))
  }

  /** parse_geometry_xy: cuts at the first '+' (else at the first '-' after index 0); None stands for (None, None). */
  function ParseGeometryXY(geo: string): (r: Option<(int, int)>)
    ensures r.Some? ==> '+' in geo || '-' in geo
  {
    var idx := Find(geo, '+', 0);
    var idx2 := Find(geo, '-', 1);
    var cut := if idx != -1 then idx else idx2;
    if cut == -1 then None else ParsePosition(geo[cut..])
  }

  /** Without a '+' anywhere and a '-' after the first character there is no position. */
  lemma NoSignNoPosition(geo: string)
    requires '+' !in geo && (geo == [] || '-' !in geo[1..])
    ensures ParseGeometryXY(geo) == None
  {
    assert Find(geo, '+', 0) == -1;
    if geo != [] {
      assert forall k :: 1 <= k < |geo| ==> geo[k] == geo[1..][k - 1];
    }
    assert Find(geo, '-', 1) == -1;
  }

  /** "WxH+X+Y" as Tk writes it and as the window code builds it, X and Y possibly negative. */
  function GeometryString(w: nat, h: nat, x: int, y: int): string {
    NatToDecimal(w) + "x" + NatToDecimal(h) + "+" + IntToString(x) + "+" + IntToString(y)
  }

  /** A leading '+' only adds an empty field, which the filter drops. */
  lemma FieldsAfterPlus(s: string)
    ensures Fields("+" + s) == Fields(s)
  {
    assert "+" + s == [] + ['+'] + s;
    SplitOnFirst([], '+', s);
  }

  lemma FieldsAfterSign(p: string, s: string)
    requires p == "" || p == "+"
    ensures Fields(p + s) == Fields(s)
  {
    if p == "" {
      assert p + s == s;
    } else {
      FieldsAfterPlus(s);
    }
  }

  /** A non-blank field without '+' comes first. */
  lemma FieldsCons(a: string, s: string)
    requires '+' !in a && Strip(a) != []
    ensures Fields(a + "+" + s) == [a] + Fields(s)
  {
    assert a + "+" + s == a + ['+'] + s;
    SplitOnFirst(a, '+', s);
  }

  lemma FieldsSingle(a: string)
    requires '+' !in a && Strip(a) != []
    ensures Fields(a) == [a]
  {
    SplitOnNoSeparator(a, '+');
  }

  /** A single field, possibly led by a '+'. */
  lemma {:induction false} FieldsSigned(pb: string, b: string)
    requires pb == "" || pb == "+"
    requires '+' !in b && Strip(b) != []
    ensures Fields(pb + b) == [b]
  {
    FieldsAfterSign(pb, b);
    FieldsSingle(b);
  }

  /** A field, '+', then a tail holding one field. */
  lemma {:induction false} FieldsPair(a: string, c: string, b: string)
    requires '+' !in a && Strip(a) != []
    requires Fields(c) == [b]
    ensures Fields(a + "+" + c) == [a, b]
  {
    FieldsCons(a, c);
  }

  lemma PlusRegroup(p: string, a: string, c: string)
    ensures "+" + (p + a) + "+" + c == "+" + (p + (a + "+" + c))
  {
  }

  lemma FieldsAfterSigns(p: string, s: string)
    requires p == "" || p == "+"
    ensures Fields("+" + (p + s)) == Fields(s)
  {
    FieldsAfterPlus(p + s);
    FieldsAfterSign(p, s);
  }

  /** "+" + a + "+" + b, each field possibly led by a further '+', has the fields a and b. */
  lemma {:induction false} FieldsTwo(pa: string, a: string, pb: string, b: string)
    requires pa == "" || pa == "+"
    requires pb == "" || pb == "+"
    requires '+' !in a && Strip(a) != []
    requires '+' !in b && Strip(b) != []
    ensures Fields("+" + (pa + a) + "+" + (pb + b)) == [a, b]
  {
    var tail := a + "+" + (pb + b);
    PlusRegroup(pa, a, pb + b);
    FieldsAfterSigns(pa, tail);
    FieldsSigned(pb, b);
    FieldsPair(a, pb + b, b);
  }

  lemma ReplaceDashPosition(a: string, b: string)
    ensures ReplaceDash("+" + a + "+" + b) == "+" + ReplaceDash(a) + "+" + ReplaceDash(b)
  {
    ReplaceDashAppend("+" + a + "+", b);
    ReplaceDashAppend("+" + a, "+");
    ReplaceDashAppend("+", a);
    assert ReplaceDash("+") == "+";
  }

  /** str(x) holds no '+'. */
  lemma NoPlusInInt(x: int)
    ensures '+' !in IntToString(x)
  {
    var d := NatToDecimal(if x < 0 then -x else x);
    assert forall k :: 0 <= k < |d| ==> d[k] != '+';
    assert IntToString(x) == (if x < 0 then "-" else "") + d;
  }

  /** str(x) is not blank. */
  lemma IntNotBlank(x: int)
    ensures Strip(IntToString(x)) != []
  {
    assert |IntToString(x)| >= 1;
    StripOfInt(x);
  }

  /** str(x) after the dash replacement: a '+' in front of a negative number, nothing else changed. */
  lemma ReplaceDashInt(x: int)
    ensures ReplaceDash(IntToString(x)) == (if x < 0 then "+" else "") + IntToString(x)
  {
    var d := NatToDecimal(if x < 0 then -x else x);
    ReplaceDashDigits(d);
    if x < 0 {
      assert ReplaceDash("-") == "+-";
      ReplaceDashAppend("-", d);
    }
  }

  /** The fields of "+" + str(x) + "+" + str(y) after the dash replacement are str(x) and str(y). */
  lemma {:induction false} FieldsOfPosition(x: int, y: int)
    ensures Fields(ReplaceDash("+" + IntToString(x) + "+" + IntToString(y))) == [IntToString(x), IntToString(y)]
  {
    ReplaceDashPosition(IntToString(x), IntToString(y));
    ReplaceDashInt(x);
    ReplaceDashInt(y);
    NoPlusInInt(x);
    NoPlusInInt(y);
    IntNotBlank(x);
    IntNotBlank(y);
    FieldsTwo(if x < 0 then "+" else "", IntToString(x), if y < 0 then "+" else "", IntToString(y));
  }

  lemma {:induction false} PositionRoundTrip(x: int, y: int)
    ensures ParsePosition("+" + IntToString(x) + "+" + IntToString(y)) == Some((x, y))
  {
    FieldsOfPosition(x, y);
    PyIntOfString(x);
    PyIntOfString(y);
  }

  /** When the text before the first '+' holds none, the cut falls there. */
  lemma CutAtFirstPlus(pre: string, pos: string)
    requires '+' !in pre && pos != [] && pos[0] == '+'
    ensures ParseGeometryXY(pre + pos) == ParsePosition(pos)
  {
    var geo := pre + pos;
    assert Find(geo, '+', 0) == |pre| by {
      assert geo[|pre|] == '+';
      assert forall k :: 0 <= k < |pre| ==> geo[k] == pre[k];
    }
    assert geo[|pre|..] == pos;
  }

  /** "WxH+X+Y" is its size part "WxH", then its position part "+X+Y". */
  lemma SizeThenPosition(dw: string, dh: string, sx: string, sy: string)
    ensures dw + "x" + dh + "+" + sx + "+" + sy == (dw + "x" + dh) + ("+" + sx + "+" + sy)
  {
  }

  /** The size part holds no '+'. */
  lemma NoPlusInSize(w: nat, h: nat)
    ensures '+' !in NatToDecimal(w) + "x" + NatToDecimal(h)
  {
    var dw, dh := NatToDecimal(w), NatToDecimal(h);
    assert forall k :: 0 <= k < |dw| ==> dw[k] != '+';
    assert forall k :: 0 <= k < |dh| ==> dh[k] != '+';
  }

  /** parse_geometry_xy reads back the position of any geometry string in the "WxH+X+Y" form. */
  lemma {:induction false} GeometryRoundTrip(w: nat, h: nat, x: int, y: int)
    ensures ParseGeometryXY(GeometryString(w, h, x, y)) == Some((x, y))
  {
    var pre := NatToDecimal(w) + "x" + NatToDecimal(h);
    var pos := "+" + IntToString(x) + "+" + IntToString(y);
    SizeThenPosition(NatToDecimal(w), NatToDecimal(h), IntToString(x), IntToString(y));
    NoPlusInSize(w, h);
    CutAtFirstPlus(pre, pos);
    PositionRoundTrip(x, y);
  }
}

=== FILE: RateLimit.dfy ===
/**
 * RateLimitManager: spacing between download attempts (a random 1..6 s delay
 * after each), an hourly attempt counter and a penalty backoff after HTTP 429.
 * Times are seconds on one clock, passed in as `now`; the random delay is the
 * parameter `r`.
 */
module RateLimit {
  import opened Wrappers

  /** One hour, the length of the counting window. */
  const WindowSeconds: real := 3600.0

  /** The shortest penalty punish_backoff imposes. */
  const MinBackoff: int := 5

  datatype LimiterState = LimiterState(
    lastDownloadTime: Option<real>,
    downloadCount: int,
    resetTime: Option<real>,
    currentDelay: real,
    backoffUntil: Option<real>)

  /** The state __init__ sets up. */
  function Initial(): (s: LimiterState)
    ensures s.lastDownloadTime.None? && s.resetTime.None? && s.backoffUntil.None?
    ensures s.downloadCount == 0 && s.currentDelay == 3.0
  {
    LimiterState(None, 0, None, 3.0, None)
  }

  /** The fields stay consistent: an attempt sets the last time, the count and the window together. */
  predicate ValidLimiter(s: LimiterState) {
    && s.downloadCount >= 0
    && (s.lastDownloadTime.None? <==> s.downloadCount == 0)
    && (s.lastDownloadTime.None? <==> s.resetTime.None?)
    && 1.0 <= s.currentDelay <= 6.0
  }

  /** The answer of can_download: may a download start, and if not, how many seconds to wait. */
  datatype Verdict = Verdict(allowed: bool, wait: real)

  /** can_download at time now: an active backoff first, then the spacing since the last attempt. */
  function CheckAt(s: LimiterState, now: real): (v: Verdict)
    ensures v.allowed ==> v.wait == 0.0
    ensures !v.allowed ==> v.wait > 0.0
    ensures s.backoffUntil.Some? && now < s.backoffUntil.value ==> v == Verdict(false, s.backoffUntil.value - now)
    ensures v.allowed <==> (s.backoffUntil.None? || now >= s.backoffUntil.value)
                           && (s.lastDownloadTime.None? || now >= s.lastDownloadTime.value + s.currentDelay)
    ensures !v.allowed && (s.backoffUntil.None? || now >= s.backoffUntil.value) ==>
      s.lastDownloadTime.Some? && now + v.wait == s.lastDownloadTime.value + s.currentDelay
  {
    if s.backoffUntil.Some? && now < s.backoffUntil.value then
      Verdict(false, s.backoffUntil.value - now)
    else if s.lastDownloadTime.None? then
      Verdict(true, 0.0)
    else
      var elapsed := now - s.lastDownloadTime.value;
      if elapsed < s.currentDelay then Verdict(false, s.currentDelay - elapsed)
      else Verdict(true, 0.0)
  }

  /** record_download_attempt at time now, with r the value random.randint(1, 6) drew. */
  function AfterAttempt(s: LimiterState, now: real, r: int): (t: LimiterState)
    requires 1 <= r <= 6
    ensures t.lastDownloadTime == Some(now) && t.currentDelay == r as real
    ensures t.backoffUntil == s.backoffUntil
    ensures t.resetTime.Some? && now <= t.resetTime.value
  {
    var expired := s.resetTime.None? || now > s.resetTime.value;
    LimiterState(
      Some(now),
      if expired then 1 else s.downloadCount + 1,
      if expired then Some(now + WindowSeconds) else s.resetTime,
      r as real,
      s.backoffUntil)
  }

  /** punish_backoff(seconds) at time now: blocked for at least five seconds. */
  function AfterPunish(s: LimiterState, now: real, seconds: int): (t: LimiterState)
    ensures t.backoffUntil.Some? && t.backoffUntil.value >= now + MinBackoff as real
    ensures t.backoffUntil.value >= now + seconds as real
    ensures t.backoffUntil == Some(now + (if seconds < MinBackoff then MinBackoff else seconds) as real)
    ensures t.(backoffUntil := s.backoffUntil) == s
  {
    var penalty := if MinBackoff > seconds then MinBackoff else seconds;
    s.(backoffUntil := Some(now + penalty as real))
  }

  /** get_stats */
  function Stats(s: LimiterState): int {
    s.downloadCount
  }

  lemma InitialValid()
    ensures ValidLimiter(Initial())
  {
  }

  /** A fresh limiter lets the first download through at any time. */
  lemma FirstDownloadAllowed(now: real)
    ensures CheckAt(Initial(), now) == Verdict(true, 0.0)
  {
  }

  /** record_download_attempt keeps the fields consistent and starts or extends the hourly count. */
  lemma AttemptValid(s: LimiterState, now: real, r: int)
    requires ValidLimiter(s) && 1 <= r <= 6
    ensures ValidLimiter(AfterAttempt(s, now, r))
    ensures Stats(AfterAttempt(s, now, r)) >= 1
    ensures s.resetTime.Some? && now <= s.resetTime.value ==> Stats(AfterAttempt(s, now, r)) == Stats(s) + 1
    ensures s.resetTime.None? || now > s.resetTime.value ==>
      Stats(AfterAttempt(s, now, r)) == 1 && AfterAttempt(s, now, r).resetTime == Some(now + WindowSeconds)
  {
  }

  lemma PunishValid(s: LimiterState, now: real, seconds: int)
    requires ValidLimiter(s)
    ensures ValidLimiter(AfterPunish(s, now, seconds))
    ensures AfterPunish(s, now, seconds).downloadCount == s.downloadCount
  {
  }

  /**
   * After punish_backoff every check before the penalty has run out is refused,
   * with a wait that is exactly the remaining penalty and so shrinks as time passes.
   */
  lemma BackoffBlocks(s: LimiterState, now: real, seconds: int, t1: real, t2: real)
    requires var p := if MinBackoff > seconds then MinBackoff else seconds; now <= t1 < t2 < now + p as real
    ensures !CheckAt(AfterPunish(s, now, seconds), t1).allowed
    ensures !CheckAt(AfterPunish(s, now, seconds), t2).allowed
    ensures CheckAt(AfterPunish(s, now, seconds), t2).wait < CheckAt(AfterPunish(s, now, seconds), t1).wait
  {
  }

  /** Five seconds is the least penalty, whatever is asked for. */
  lemma BackoffAtLeastFive(s: LimiterState, now: real, seconds: int, t: real)
    requires now <= t < now + MinBackoff as real
    ensures CheckAt(AfterPunish(s, now, seconds), t) == Verdict(false, AfterPunish(s, now, seconds).backoffUntil.value - t)
  {
  }

  /**
   * Spacing: right after an attempt at time now with delay r, a check at t is refused
   * exactly while t is less than r seconds later, and then it waits out the rest of the delay.
   */
  lemma SpacingAfterAttempt(s: LimiterState, now: real, r: int, t: real)
    requires 1 <= r <= 6 && now <= t
    requires s.backoffUntil.None? || s.backoffUntil.value <= t
    ensures CheckAt(AfterAttempt(s, now, r), t).allowed <==> t >= now + r as real
    ensures t < now + r as real ==> CheckAt(AfterAttempt(s, now, r), t).wait == r as real - (t - now)
  {
  }

  /** Apply attempts at the times ts, drawing the delays rs. */
  function AfterAttempts(s: LimiterState, ts: seq<real>, rs: seq<int>): (t: LimiterState)
    requires |ts| == |rs| && forall i :: 0 <= i < |rs| ==> 1 <= rs[i] <= 6
    ensures ts != [] ==> t.lastDownloadTime == Some(ts[|ts| - 1])
  {
    if ts == [] then s
    else AfterAttempt(AfterAttempts(s, ts[..|ts| - 1], rs[..|rs| - 1]), ts[|ts| - 1], rs[|rs| - 1])
  }

  /**
   * The hourly count: when the first attempt opens a new window and the later ones all
   * fall within the hour after it, get_stats reports exactly the number of attempts.
   */
  lemma {:induction false} CountWithinHour(s: LimiterState, ts: seq<real>, rs: seq<int>)
    requires |ts| == |rs| >= 1 && forall i :: 0 <= i < |rs| ==> 1 <= rs[i] <= 6
    requires s.resetTime.None? || ts[0] > s.resetTime.value
    requires forall i :: 0 <= i < |ts| ==> ts[i] <= ts[0] + WindowSeconds
    ensures Stats(AfterAttempts(s, ts, rs)) == |ts|
    ensures AfterAttempts(s, ts, rs).resetTime == Some(ts[0] + WindowSeconds)
  {
    if |ts| > 1 {
      var ts', rs' := ts[..|ts| - 1], rs[..|rs| - 1];
      assert ts'[0] == ts[0];
      CountWithinHour(s, ts', rs');
    } else {
      assert ts[..0] == [];
    }
  }

  /** The limiter object; its methods update the fields in place as the source does. */
  class RateLimitManager {
    var lastDownloadTime: Option<real>
    var downloadCount: int
    var resetTime: Option<real>
    var currentDelay: real
    var backoffUntil: Option<real>

    function State(): LimiterState
      reads this
    {
      LimiterState(lastDownloadTime, downloadCount, resetTime, currentDelay, backoffUntil)
    }

    constructor ()
      ensures State() == Initial()
    {
      lastDownloadTime := None;
      downloadCount := 0;
      resetTime := None;
      currentDelay := 3.0;
      backoffUntil := None;
    }

    /** can_download */
    method CanDownload(now: real) returns (ok: bool, wait: real)
      ensures Verdict(ok, wait) == CheckAt(State(), now)
      ensures ok ==> wait == 0.0
      ensures !ok ==> wait > 0.0
    {
      if backoffUntil.Some? && now < backoffUntil.value {
        return false, backoffUntil.value - now;
      }
      if lastDownloadTime.None? {
        return true, 0.0;
      }
      var elapsed := now - lastDownloadTime.value;
      if elapsed < currentDelay {
        return false, currentDelay - elapsed;
      }
      return true, 0.0;
    }

    /** record_download_attempt */
    method RecordDownloadAttempt(now: real, r: int)
      requires 1 <= r <= 6
      modifies this
      ensures State() == AfterAttempt(old(State()), now, r)
    {
      lastDownloadTime := Some(now);
      downloadCount := downloadCount + 1;
      currentDelay := r as real;
      if resetTime.None? || now > resetTime.value {
        resetTime := Some(now + WindowSeconds);
        downloadCount := 1;
      }
    }

    /** punish_backoff */
    method PunishBackoff(now: real, seconds: int)
      modifies this
      ensures State() == AfterPunish(old(State()), now, seconds)
    {
      var penalty := if MinBackoff > seconds then MinBackoff else seconds;
      backoffUntil := Some(now + penalty as real);
    }

    /** get_stats */
    method GetStats() returns (n: int)
      ensures n == Stats(State())
    {
      return downloadCount;
    }
  }
}

=== FILE: Scheduler.dfy ===
/**
 * The single-flight download scheduler of the downloader window: the busy
 * flag, the pending retry timer, the rate limiter and the FIFO queue through
 * which the worker thread hands UI events to the main loop. Widgets are
 * stripped away: an event that only repaints a widget is kept as data and
 * recorded in `handled` when the main loop processes it.
 *
 * Each entry point is a function from the old state to the new one; the class
 * `Downloader` at the end performs the same steps in place.
 */
module Scheduler {
  import opened Wrappers
  import opened Strings
  import opened Digits
  import opened UrlInput
  import opened Format
  import opened RateLimit

  /** The colour constants the events carry. */
  datatype Color = Accent | TextColor | Success | Error | Warn | Busy

  datatype ButtonState = Normal | Disabled

  datatype FlashStatus = FlashSuccess | FlashError

  /** The events of the UI queue, one constructor per event name the handler knows. */
  datatype Event =
    | Log(msg: string)
    | Progress(val: real, text: string, color: Color)
    | Duration(text: string, color: Color)
    | Button(state: ButtonState, text: string, fg: Color)
    | ResetUi(resetDuration: bool)
    | FlashMini(status: FlashStatus)
    | SetDownloading(value: bool)
    | AutoCopyCaption(caption: string, channel: string)

  /** A pending toolkit timer that will call one_click_action with `link`. */
  datatype Timer = Timer(id: nat, delayMs: int, link: Option<string>)

  /** How the download inside the worker's try block ended. */
  datatype Outcome = Completed(fileName: string) | Raised(msg: string)

  datatype Sched = Sched(
    isDownloading: bool,
    retryAfterId: Option<nat>,
    timers: seq<Timer>,
    nextTimerId: nat,
    entryText: string,
    limiter: LimiterState,
    uiQueue: seq<Event>,
    handled: seq<Event>,
    running: Option<string>)

  /** The state __init__ leaves: idle, no retry pending, an empty queue. */
  function InitialSched(): (s: Sched)
    ensures !s.isDownloading && s.running.None? && s.uiQueue == [] && s.timers == []
  {
    Sched(false, None, [], 0, "", Initial(), [], [], None)
  }

  // ---------------------------------------------------------------------------
  // The busy flag and the events that change it
  // ---------------------------------------------------------------------------

  /** The events whose handling clears the busy flag: set_downloading(False) and reset_ui. */
  predicate Clears(e: Event) {
    e.ResetUi? || (e.SetDownloading? && !e.value)
  }

  predicate NoClear(q: seq<Event>) {
    forall i :: 0 <= i < |q| ==> !Clears(q[i])
  }

  /** No queued event sets the flag: only start_download does, directly. */
  predicate NoSetTrue(q: seq<Event>) {
    forall i :: 0 <= i < |q| ==> !(q[i].SetDownloading? && q[i].value)
  }

  /** The busy flag after handling one event. */
  function Flag(b: bool, e: Event): bool {
    match e
    case SetDownloading(v) => v
    case ResetUi(_) => false
    case _ => b
  }

  /** The busy flag after handling the events of q in order. */
  function FlagAfter(b: bool, q: seq<Event>): bool
    decreases |q|
  {
    if q == [] then b else FlagAfter(Flag(b, q[0]), q[1..])
  }

  /** Without an event that sets the flag, the flag survives a queue exactly when no event clears it. */
  lemma {:induction false} FlagAfterNoSetTrue(b: bool, q: seq<Event>)
    requires NoSetTrue(q)
    ensures FlagAfter(b, q) <==> b && NoClear(q)
    decreases |q|
  {
    if q != [] {
      assert NoSetTrue(q[1..]);
      FlagAfterNoSetTrue(Flag(b, q[0]), q[1..]);
      assert NoClear(q) <==> !Clears(q[0]) && NoClear(q[1..]);
    }
  }

  lemma {:induction false} FlagAfterAppend(b: bool, p: seq<Event>, q: seq<Event>)
    ensures FlagAfter(b, p + q) == FlagAfter(FlagAfter(b, p), q)
    decreases |p|
  {
    if p != [] {
      assert (p + q)[1..] == p[1..] + q;
      FlagAfterAppend(Flag(b, p[0]), p[1..], q);
    } else {
      assert p + q == q;
    }
  }

  /** The last set_downloading event decides the flag, whatever came before. */
  lemma LastSetDownloadingWins(b: bool, q: seq<Event>, v: bool)
    ensures FlagAfter(b, q + [SetDownloading(v)]) == v
  {
    FlagAfterAppend(b, q, [SetDownloading(v)]);
  }

  /** set_downloading(False) twice leaves the flag false, as does once. */
  lemma ClearTwice(b: bool)
    ensures FlagAfter(b, [SetDownloading(false), SetDownloading(false)]) == false
    ensures FlagAfter(b, [SetDownloading(false), SetDownloading(false)]) == FlagAfter(b, [SetDownloading(false)])
  {
  }

  /** reset_ui always leaves the flag false. */
  lemma ResetUiClears(b: bool, q: seq<Event>, resetDuration: bool)
    ensures FlagAfter(b, q + [ResetUi(resetDuration)]) == false
  {
    FlagAfterAppend(b, q, [ResetUi(resetDuration)]);
  }

  // ---------------------------------------------------------------------------
  // ui, _handle_ui_event and _process_ui_queue
  // ---------------------------------------------------------------------------

  /** ui(event, ...): put the event at the back of the queue. */
  function Put(s: Sched, e: Event): (t: Sched)
    ensures t.uiQueue == s.uiQueue + [e] && |t.uiQueue| == |s.uiQueue| + 1
  {
    s.(uiQueue := s.uiQueue + [e])
  }

  /**
   * _handle_ui_event for one event: set_downloading sets the flag, reset_ui clears
   * it and empties the link entry; every event is recorded as handled.
   */
  function Handle(s: Sched, e: Event): (t: Sched)
    ensures t.isDownloading == Flag(s.isDownloading, e)
    ensures t.handled == s.handled + [e]
  {
    match e
    case SetDownloading(v) => s.(isDownloading := v, handled := s.handled + [e])
    case ResetUi(_) => s.(isDownloading := false, entryText := "", handled := s.handled + [e])
    case _ => s.(handled := s.handled + [e])
  }

  /** Handle the events of q in order, starting from s. */
  function HandleAll(s: Sched, q: seq<Event>): Sched
    decreases |q|
  {
    if q == [] then s else HandleAll(Handle(s, q[0]), q[1..])
  }

  predicate HasReset(q: seq<Event>) {
    exists i :: 0 <= i < |q| && q[i].ResetUi?
  }

  /** Handling a queue records it, moves the flag as FlagAfter says and touches nothing else but the entry. */
  lemma {:induction false} HandleAllEffect(s: Sched, q: seq<Event>)
    ensures HandleAll(s, q).handled == s.handled + q
    ensures HandleAll(s, q).isDownloading == FlagAfter(s.isDownloading, q)
    ensures HandleAll(s, q).entryText == if HasReset(q) then "" else s.entryText
    ensures HandleAll(s, q) == s.(isDownloading := HandleAll(s, q).isDownloading,
                                  entryText := HandleAll(s, q).entryText,
                                  handled := HandleAll(s, q).handled)
    decreases |q|
  {
    if q != [] {
      HandleAllEffect(Handle(s, q[0]), q[1..]);
      assert HasReset(q) <==> q[0].ResetUi? || HasReset(q[1..]) by {
        if HasReset(q[1..]) {
          var i :| 0 <= i < |q[1..]| && q[1..][i].ResetUi?;
          assert q[i + 1].ResetUi?;
        }
      }
      assert s.handled + [q[0]] + q[1..] == s.handled + q;
    }
  }

  /** One tick of _process_ui_queue: drain the whole queue, in order. */
  function Tick(s: Sched): Sched {
    HandleAll(s.(uiQueue := []), s.uiQueue)
  }

  /** A tick leaves the queue empty, handles every queued event in the order it was put, and nothing more. */
  lemma TickDrains(s: Sched)
    ensures Tick(s).uiQueue == []
    ensures Tick(s).handled == s.handled + s.uiQueue
    ensures Tick(s).isDownloading == FlagAfter(s.isDownloading, s.uiQueue)
    ensures Tick(s) == s.(uiQueue := [], isDownloading := Tick(s).isDownloading,
                          entryText := Tick(s).entryText, handled := Tick(s).handled)
  {
    HandleAllEffect(s.(uiQueue := []), s.uiQueue);
  }

  /** Events put one after the other are handled in that order by the next tick. */
  lemma PutThenTick(s: Sched, e1: Event, e2: Event)
    ensures Tick(Put(Put(s, e1), e2)).handled == s.handled + s.uiQueue + [e1, e2]
  {
    TickDrains(Put(Put(s, e1), e2));
    assert s.uiQueue + [e1] + [e2] == s.uiQueue + [e1, e2];
  }

  /** reset_ui as called directly: empty the entry, clear the flag. */
  function ResetUiNow(s: Sched): (t: Sched)
    ensures !t.isDownloading && t.entryText == []
    ensures t.running == s.running && t.uiQueue == s.uiQueue && t.limiter == s.limiter
  {
    s.(isDownloading := false, entryText := "")
  }

  // ---------------------------------------------------------------------------
  // Retry timer
  // ---------------------------------------------------------------------------

  function RemoveTimer(ts: seq<Timer>, id: nat): (r: seq<Timer>)
    ensures |r| <= |ts|
    ensures forall i :: 0 <= i < |r| ==> r[i].id != id
    ensures forall i :: 0 <= i < |ts| && ts[i].id != id ==> ts[i] in r
  {
    if ts == [] then []
    else (if ts[0].id == id then [] else [ts[0]]) + RemoveTimer(ts[1..], id)
  }

  /** after_cancel(_retry_after_id) followed by _retry_after_id = None. */
  function CancelRetry(s: Sched): (t: Sched)
    requires s.retryAfterId.Some?
    ensures t.retryAfterId.None?
    ensures forall i :: 0 <= i < |t.timers| ==> t.timers[i].id != s.retryAfterId.value
  {
    s.(timers := RemoveTimer(s.timers, s.retryAfterId.value), retryAfterId := None)
  }

  /** int(max(1, wait)) for a positive wait: at least one whole second, the wait rounded down. */
  function RetrySeconds(wait: real): (n: int)
    ensures n >= 1
    ensures wait >= 1.0 ==> n as real <= wait < n as real + 1.0
    ensures wait < 1.0 ==> n == 1
  {
    if wait < 1.0 then 1 else wait.Floor
  }

  /** self.after(wait_s * 1000, lambda: self.one_click_action(provided_link)), handle kept in _retry_after_id. */
  function ScheduleRetry(s: Sched, wait: real, link: Option<string>): (t: Sched)
    ensures t.timers == s.timers + [Timer(s.nextTimerId, RetrySeconds(wait) * 1000, link)]
    ensures t.retryAfterId == Some(s.nextTimerId)
    ensures t.limiter == s.limiter && t.uiQueue == s.uiQueue && t.running == s.running
  {
    var waitS := RetrySeconds(wait);
    s.(timers := s.timers + [Timer(s.nextTimerId, waitS * 1000, link)],
       retryAfterId := Some(s.nextTimerId),
       nextTimerId := s.nextTimerId + 1)
  }

  // ---------------------------------------------------------------------------
  // start_download, one_click_action, on_drop, the retry callback, on_closing
  // ---------------------------------------------------------------------------

  /** The button event start_download puts before it starts the worker. */
  function ProcessingButton(): Event {
    Button(Disabled, "PROCESSING...", Busy)
  }

  /** The first half of admitting a link: the flag goes up and the button shows PROCESSING. */
  function MarkedBusy(s: Sched): (t: Sched)
    ensures t.isDownloading && t.uiQueue == s.uiQueue + [ProcessingButton()]
    ensures t.(isDownloading := s.isDownloading, uiQueue := s.uiQueue) == s
  {
    s.(isDownloading := true, uiQueue := s.uiQueue + [ProcessingButton()])
  }

  /**
   * The second half: the attempt is recorded and the worker starts. It is only
   * defined once the flag is up, so no attempt is ever recorded for an idle app.
   */
  function Launch(s: Sched, url: string, now: real, r: int): (t: Sched)
    requires s.isDownloading && 1 <= r <= 6
    ensures t.isDownloading && t.running == Some(url)
    ensures t.limiter == AfterAttempt(s.limiter, now, r)
    ensures t.(limiter := s.limiter, running := s.running) == s
  {
    s.(limiter := AfterAttempt(s.limiter, now, r), running := Some(url))
  }

  /** Admitting a link: MarkedBusy, then Launch. */
  function Admit(s: Sched, url: string, now: real, r: int): (t: Sched)
    requires 1 <= r <= 6
    ensures t.isDownloading && t.running == Some(url)
    ensures t.limiter == AfterAttempt(s.limiter, now, r)
    ensures t.uiQueue == s.uiQueue + [ProcessingButton()]
    ensures t.timers == s.timers && t.retryAfterId == s.retryAfterId && t.entryText == s.entryText
  {
    Launch(MarkedBusy(s), url, now, r)
  }

  /**
   * start_download: busy means nothing happens; the entry text is normalized again
   * and must be supported; then the download is admitted.
   */
  function Start(s: Sched, now: real, r: int, urlparse: string -> Option<UrlParts>): (t: Sched)
    requires 1 <= r <= 6
    ensures s.isDownloading ==> t == s
    ensures t == s || (!s.isDownloading && IsSupportedUrl(NormalizeInputUrl(s.entryText), urlparse)
                       && t == Admit(s, NormalizeInputUrl(s.entryText), now, r))
  {
    if s.isDownloading then s
    else
      var url := NormalizeInputUrl(s.entryText);
      if !IsSupportedUrl(url, urlparse) then s
      else Admit(s, url, now, r)
  }

  /** The text one_click_action normalizes: the link when it is truthy, else the clipboard (None when reading it raises). */
  function LinkSource(link: Option<string>, clipboard: Option<string>): (src: Option<string>)
    ensures src == link || src == clipboard
    ensures link.Some? && link.value != "" ==> src == link
    ensures link.None? || link.value == "" ==> src == clipboard
  {
    if link.Some? && link.value != "" then link else clipboard
  }

  /** The first step of one_click_action: cancel a pending retry and forget its handle. */
  function CancelPending(s: Sched): (t: Sched)
    ensures t.retryAfterId.None?
    ensures t.limiter == s.limiter && t.uiQueue == s.uiQueue && t.isDownloading == s.isDownloading
    ensures t.running == s.running && t.entryText == s.entryText
  {
    if s.retryAfterId.Some? then CancelRetry(s) else s
  }

  /** The end of one_click_action once the text is read: a supported content goes to the entry and to start_download. */
  function Submit(s: Sched, content: string, now: real, r: int, urlparse: string -> Option<UrlParts>): (t: Sched)
    requires 1 <= r <= 6
    ensures !IsSupportedUrl(content, urlparse) ==> t == s
  {
    if !IsSupportedUrl(content, urlparse) then s
    else Start(s.(entryText := content), now, r, urlparse)
  }

  /**
   * one_click_action(provided_link): busy means nothing happens; a pending retry is
   * cancelled; the rate limiter is asked before anything else and a refusal schedules
   * a retry with the same link; then the link or clipboard text is normalized and,
   * when supported, put into the entry and handed to start_download.
   */
  function Click(s: Sched, link: Option<string>, clipboard: Option<string>, now: real, r: int,
                 urlparse: string -> Option<UrlParts>): (t: Sched)
    requires 1 <= r <= 6
    ensures s.isDownloading ==> t == s
  {
    if s.isDownloading then s
    else
      var s1 := CancelPending(s);
      var v := CheckAt(s1.limiter, now);
      if !v.allowed then ScheduleRetry(s1, v.wait, link)
      else
        match LinkSource(link, clipboard)
        case None => s1
        case Some(text) => Submit(s1, NormalizeInputUrl(text), now, r, urlparse)
  }

  /** on_drop: busy means nothing happens; otherwise one_click_action on the normalized dropped text. */
  function Drop(s: Sched, data: string, clipboard: Option<string>, now: real, r: int,
                urlparse: string -> Option<UrlParts>): (t: Sched)
    requires 1 <= r <= 6
    ensures s.isDownloading ==> t == s
  {
    if s.isDownloading then s
    else Click(s, Some(NormalizeInputUrl(data)), clipboard, now, r, urlparse)
  }

  /** The pending retry timer fires: it leaves the timer list and calls one_click_action with its link. */
  function RetryFires(s: Sched, clipboard: Option<string>, now: real, r: int,
                     urlparse: string -> Option<UrlParts>): Sched
    requires s.timers != [] && 1 <= r <= 6
  {
    Click(s.(timers := s.timers[1..]), s.timers[0].link, clipboard, now, r, urlparse)
  }

  /** on_closing: cancel the pending retry and forget its handle. */
  function Closing(s: Sched): (t: Sched)
    ensures t.retryAfterId.None?
  {
    CancelPending(s)
  }

  // ---------------------------------------------------------------------------
  // The end of download_video_worker
  // ---------------------------------------------------------------------------

  /** The error classification of the except block. */
  predicate Is429(msg: string) {
    Contains(msg, "429") || Contains(msg, "Too Many Requests")
  }

  /** What the try block of the worker may put: logs, progress, the duration, the caption. */
  predicate BodyEvent(e: Event) {
    e.Log? || e.Progress? || e.Duration? || e.AutoCopyCaption?
  }

  /** The penalty, in seconds, the except block imposes on a 429. */
  const PenaltySeconds: int := 10 * 60

  const PasteButton: Event := Button(Normal, "PASTE", Accent)

  /** The end of the try block after a finished download, with get_stats read as `stats`. */
  function SuccessEvents(stats: int, fileName: string): (es: seq<Event>)
    ensures |es| == 5 && es[3] == ResetUi(false)
  {
    [ Log("✅ Tải xong: " + fileName),
      Log("📊 Đã tải " + IntToString(stats) + " video trong giờ này"),
      Progress(1.0, "🎉 Xử lý thành công!", Success),
      ResetUi(false),
      FlashMini(FlashSuccess) ]
  }

  /** The progress event of the except block: the 429 message, or the error truncated to 120 characters. */
  function ErrorProgress(msg: string): (e: Event)
    ensures e.Progress? && e.val == 0.0 && e.color == Error
    ensures !Is429(msg) ==> e.text == "❌ Lỗi: " + SafeTruncate(msg, 120)
  {
    if Is429(msg) then Progress(0.0, "❌ 429: Bị giới hạn tốc độ!", Error)
    else Progress(0.0, "❌ Lỗi: " + SafeTruncate(msg, 120), Error)
  }

  /**
   * The events of the except block: the error logged (cut to 900 characters), the
   * extra backoff log exactly on a 429, the progress label, then the N/A duration,
   * the PASTE button, the clear of the busy flag and the error flash.
   */
  function ErrorEvents(msg: string): (es: seq<Event>)
    ensures |es| == (if Is429(msg) then 7 else 6)
    ensures es[|es| - 5] == ErrorProgress(msg) && es[|es| - 2] == SetDownloading(false)
  {
    [Log("❌ Lỗi: " + SafeTruncate(msg, 900))]
    + (if Is429(msg) then [BackoffLog] else [])
    + [ErrorProgress(msg), Duration("N/A", Warn), PasteButton, SetDownloading(false), FlashMini(FlashError)]
  }

  /** The log line the except block adds on a 429. */
  const BackoffLog: Event := Log("🚨 429 Too Many Requests → Backoff 10 phút")

  /** The other events of the except block, each in its place. */
  lemma ErrorEventsLayout(msg: string)
    ensures var es := ErrorEvents(msg);
            && es[0] == Log("❌ Lỗi: " + SafeTruncate(msg, 900))
            && (Is429(msg) <==> es[1] == BackoffLog)
            && es[|es| - 4] == Duration("N/A", Warn) && es[|es| - 3] == PasteButton
            && es[|es| - 1] == FlashMini(FlashError)
  {
  }

  /** The events the finally block puts, reading the busy flag as it stands. */
  function FinallyEvents(isDownloading: bool): seq<Event> {
    if isDownloading then [] else [PasteButton, SetDownloading(false)]
  }

  /**
   * The worker's try block ending after it put `body`: the success tail or the except
   * block, with the 429 penalty through punish_backoff. The download is over; only the
   * finally block is left to run on the worker thread.
   */
  function WorkerTail(s: Sched, body: seq<Event>, outcome: Outcome, now: real): (t: Sched)
    requires s.running.Some?
    ensures t.running.None? && t.isDownloading == s.isDownloading
    ensures t.timers == s.timers && t.retryAfterId == s.retryAfterId && t.nextTimerId == s.nextTimerId
    ensures t.entryText == s.entryText && t.handled == s.handled
    ensures |s.uiQueue| + |body| <= |t.uiQueue| && t.uiQueue[..|s.uiQueue| + |body|] == s.uiQueue + body
    ensures !(outcome.Raised? && Is429(outcome.msg)) ==> t.limiter == s.limiter
    ensures outcome.Raised? && Is429(outcome.msg) ==> t.limiter == AfterPunish(s.limiter, now, PenaltySeconds)
  {
    var tail := match outcome
      case Completed(fileName) => SuccessEvents(Stats(s.limiter), fileName)
      case Raised(msg) => ErrorEvents(msg);
    var limiter := if outcome.Raised? && Is429(outcome.msg) then AfterPunish(s.limiter, now, PenaltySeconds) else s.limiter;
    s.(uiQueue := s.uiQueue + body + tail, limiter := limiter, running := None)
  }

  /** The finally block, a step of its own on the worker thread: it reads the busy flag as it stands then. */
  function Finally(s: Sched): (t: Sched)
    ensures s.isDownloading ==> t == s
    ensures !s.isDownloading ==> t == s.(uiQueue := s.uiQueue + [PasteButton, SetDownloading(false)])
  {
    s.(uiQueue := s.uiQueue + FinallyEvents(s.isDownloading))
  }

  /**
   * The worker finishing with the finally block run right after the try block ends,
   * before the main loop handles anything: the schedule under which single flight holds.
   */
  function Worker(s: Sched, body: seq<Event>, outcome: Outcome, now: real): (t: Sched)
    requires s.running.Some?
    ensures t.running.None? && t.isDownloading == s.isDownloading
    ensures t.timers == s.timers && t.retryAfterId == s.retryAfterId && t.nextTimerId == s.nextTimerId
    ensures t.entryText == s.entryText && t.handled == s.handled
    ensures |s.uiQueue| + |body| <= |t.uiQueue| && t.uiQueue[..|s.uiQueue| + |body|] == s.uiQueue + body
    ensures !(outcome.Raised? && Is429(outcome.msg)) ==> t.limiter == s.limiter
    ensures outcome.Raised? && Is429(outcome.msg) ==> t.limiter == AfterPunish(s.limiter, now, PenaltySeconds)
  {
    Finally(WorkerTail(s, body, outcome, now))
  }

  // ---------------------------------------------------------------------------
  // The scheduler invariant
  // ---------------------------------------------------------------------------

  predicate ValidTimers(s: Sched) {
    |s.timers| <= 1 && (s.timers != [] ==> s.retryAfterId == Some(s.timers[0].id))
  }

  /**
   * A worker runs only while the flag is set and nothing queued would clear it;
   * a set flag without a worker is about to be cleared by the queue; a clear
   * flag has no worker and no clearing event behind it; at most one retry is
   * pending, and it is the one _retry_after_id names.
   */
  predicate ValidSched(s: Sched) {
    && NoSetTrue(s.uiQueue)
    && (s.running.Some? ==> s.isDownloading && NoClear(s.uiQueue))
    && (!s.isDownloading ==> s.running.None? && NoClear(s.uiQueue))
    && (s.isDownloading && s.running.None? ==> !NoClear(s.uiQueue))
    && ValidTimers(s)
    && ValidLimiter(s.limiter)
  }

  lemma InitialSchedValid()
    ensures ValidSched(InitialSched())
  {
    InitialValid();
  }

  /** The busy flag, once the queue is handled, is set exactly while a worker runs. */
  lemma FlagTracksWorker(s: Sched)
    requires ValidSched(s)
    ensures FlagAfter(s.isDownloading, s.uiQueue) <==> s.running.Some?
    ensures s.running.Some? ==> s.isDownloading
  {
    FlagAfterNoSetTrue(s.isDownloading, s.uiQueue);
  }

  lemma NoClearAppend(p: seq<Event>, q: seq<Event>)
    ensures NoClear(p + q) <==> NoClear(p) && NoClear(q)
    ensures NoSetTrue(p + q) <==> NoSetTrue(p) && NoSetTrue(q)
  {
    assert forall i :: 0 <= i < |p| ==> (p + q)[i] == p[i];
    assert forall i :: 0 <= i < |q| ==> (p + q)[|p| + i] == q[i];
  }

  /** After a tick the flag says whether a worker runs, and the invariant still holds. */
  lemma TickValid(s: Sched)
    requires ValidSched(s)
    ensures ValidSched(Tick(s))
    ensures Tick(s).isDownloading <==> Tick(s).running.Some?
  {
    TickDrains(s);
    FlagTracksWorker(s);
  }

  lemma {:induction false} RemoveTimerOfSingle(ts: seq<Timer>, id: nat)
    requires |ts| <= 1 && (ts != [] ==> ts[0].id == id)
    ensures RemoveTimer(ts, id) == []
  {
    if ts != [] {
      assert ts[1..] == [];
    }
  }

  /** Cancelling empties the timers: a cancelled retry never fires. */
  lemma CancelValid(s: Sched)
    requires ValidSched(s) && s.retryAfterId.Some?
    ensures ValidSched(CancelRetry(s)) && CancelRetry(s).timers == []
  {
    RemoveTimerOfSingle(s.timers, s.retryAfterId.value);
  }

  /** The first step of one_click_action leaves no timer behind. */
  lemma CancelPendingValid(s: Sched)
    requires ValidSched(s)
    ensures ValidSched(CancelPending(s)) && CancelPending(s).timers == []
  {
    if s.retryAfterId.Some? {
      CancelValid(s);
    }
  }

  /** on_closing leaves no retry pending. */
  lemma ClosingValid(s: Sched)
    requires ValidSched(s)
    ensures ValidSched(Closing(s)) && Closing(s).timers == [] && Closing(s).retryAfterId.None?
  {
    CancelPendingValid(s);
  }

  lemma AdmitValid(s: Sched, url: string, now: real, r: int)
    requires ValidSched(s) && !s.isDownloading && 1 <= r <= 6
    ensures ValidSched(Admit(s, url, now, r))
  {
    AttemptValid(s.limiter, now, r);
    NoClearAppend(s.uiQueue, [ProcessingButton()]);
  }

  lemma StartValid(s: Sched, now: real, r: int, urlparse: string -> Option<UrlParts>)
    requires ValidSched(s) && 1 <= r <= 6
    ensures ValidSched(Start(s, now, r, urlparse))
  {
    if !s.isDownloading {
      AdmitValid(s, NormalizeInputUrl(s.entryText), now, r);
    }
  }

  lemma SubmitValid(s: Sched, content: string, now: real, r: int, urlparse: string -> Option<UrlParts>)
    requires ValidSched(s) && 1 <= r <= 6
    ensures ValidSched(Submit(s, content, now, r, urlparse))
  {
    StartValid(s.(entryText := content), now, r, urlparse);
  }

  lemma RetryValid(s: Sched, wait: real, link: Option<string>)
    requires ValidSched(s) && s.timers == []
    ensures ValidSched(ScheduleRetry(s, wait, link))
  {
  }

  /** one_click_action keeps the invariant: in particular a refusal leaves exactly one retry pending. */
  lemma ClickValid(s: Sched, link: Option<string>, clipboard: Option<string>, now: real, r: int,
                   urlparse: string -> Option<UrlParts>)
    requires ValidSched(s) && 1 <= r <= 6
    ensures ValidSched(Click(s, link, clipboard, now, r, urlparse))
  {
    if !s.isDownloading {
      var s1 := CancelPending(s);
      CancelPendingValid(s);
      var v := CheckAt(s1.limiter, now);
      if !v.allowed {
        RetryValid(s1, v.wait, link);
      } else if LinkSource(link, clipboard).Some? {
        SubmitValid(s1, NormalizeInputUrl(LinkSource(link, clipboard).value), now, r, urlparse);
      }
    }
  }

  lemma DropValid(s: Sched, data: string, clipboard: Option<string>, now: real, r: int,
                  urlparse: string -> Option<UrlParts>)
    requires ValidSched(s) && 1 <= r <= 6
    ensures ValidSched(Drop(s, data, clipboard, now, r, urlparse))
  {
    if !s.isDownloading {
      ClickValid(s, Some(NormalizeInputUrl(data)), clipboard, now, r, urlparse);
    }
  }

  lemma FireRetryValid(s: Sched, clipboard: Option<string>, now: real, r: int,
                       urlparse: string -> Option<UrlParts>)
    requires ValidSched(s) && s.timers != [] && 1 <= r <= 6
    ensures ValidSched(RetryFires(s, clipboard, now, r, urlparse))
  {
    ClickValid(s.(timers := s.timers[1..]), s.timers[0].link, clipboard, now, r, urlparse);
  }

  /** Run right after the try block ends, the finally block adds nothing: the flag still reads set. */
  lemma FinallySilent(s: Sched, body: seq<Event>, outcome: Outcome, now: real)
    requires ValidSched(s) && s.running.Some?
    ensures Finally(WorkerTail(s, body, outcome, now)) == WorkerTail(s, body, outcome, now)
  {
  }

  lemma TailClears(s: Sched, outcome: Outcome)
    ensures var tail := match outcome
              case Completed(fileName) => SuccessEvents(Stats(s.limiter), fileName)
              case Raised(msg) => ErrorEvents(msg);
            !NoClear(tail) && NoSetTrue(tail)
  {
    match outcome
    case Completed(fileName) =>
      var tail := SuccessEvents(Stats(s.limiter), fileName);
      assert Clears(tail[3]);
    case Raised(msg) =>
      var tail := ErrorEvents(msg);
      assert Clears(tail[|tail| - 2]);
  }

  /** The end of the try block keeps the invariant: the queue now holds the event that will clear the flag. */
  lemma WorkerTailValid(s: Sched, body: seq<Event>, outcome: Outcome, now: real)
    requires ValidSched(s) && s.running.Some?
    requires forall i :: 0 <= i < |body| ==> BodyEvent(body[i])
    ensures ValidSched(WorkerTail(s, body, outcome, now))
  {
    var tail := match outcome
      case Completed(fileName) => SuccessEvents(Stats(s.limiter), fileName)
      case Raised(msg) => ErrorEvents(msg);
    var t := WorkerTail(s, body, outcome, now);
    assert t.uiQueue == s.uiQueue + body + tail;
    TailClears(s, outcome);
    NoClearAppend(s.uiQueue, body);
    NoClearAppend(s.uiQueue + body, tail);
    if outcome.Raised? && Is429(outcome.msg) {
      PunishValid(s.limiter, now, PenaltySeconds);
    }
  }

  /** Ending a worker with the finally block run right after the tail keeps the invariant. */
  lemma WorkerValid(s: Sched, body: seq<Event>, outcome: Outcome, now: real)
    requires ValidSched(s) && s.running.Some?
    requires forall i :: 0 <= i < |body| ==> BodyEvent(body[i])
    ensures ValidSched(Worker(s, body, outcome, now))
  {
    WorkerTailValid(s, body, outcome, now);
    FinallySilent(s, body, outcome, now);
  }

  /** When a worker has ended, the next tick leaves the scheduler idle and ready for the next download. */
  lemma WorkerThenTickIdle(s: Sched, body: seq<Event>, outcome: Outcome, now: real)
    requires ValidSched(s) && s.running.Some?
    requires forall i :: 0 <= i < |body| ==> BodyEvent(body[i])
    ensures !Tick(Worker(s, body, outcome, now)).isDownloading
    ensures Tick(Worker(s, body, outcome, now)).running.None?
  {
    WorkerValid(s, body, outcome, now);
    TickValid(Worker(s, body, outcome, now));
    TickDrains(Worker(s, body, outcome, now));
  }

  /**
   * As written, the finally block is a step of its own: when the main loop has handled
   * the try block's set_downloading(False) before it runs, it reads the flag as False
   * and queues a second one. A click admitted before the next tick then sees that
   * tick clear the flag while its worker runs, and the next click can start a second
   * worker beside it.
   */
  lemma LateFinallyBreaksSingleFlight(s: Sched, body: seq<Event>, outcome: Outcome, now: real,
                                      link: string, clipboard: Option<string>, later: real, r: int,
                                      urlparse: string -> Option<UrlParts>)
    requires ValidSched(s) && s.running.Some? && 1 <= r <= 6
    requires forall i :: 0 <= i < |body| ==> BodyEvent(body[i])
    requires !(outcome.Raised? && Is429(outcome.msg))
    requires CheckAt(s.limiter, later).allowed
    requires link != ""
    requires IsSupportedUrl(NormalizeInputUrl(link), urlparse)
    requires IsSupportedUrl(NormalizeInputUrl(NormalizeInputUrl(link)), urlparse)
    ensures var ended := Tick(WorkerTail(s, body, outcome, now));
            var second := Click(Finally(ended), Some(link), clipboard, later, r, urlparse);
            && !ended.isDownloading
            && second.isDownloading && second.running.Some?
            && Tick(second).running.Some? && !Tick(second).isDownloading
            && !ValidSched(Tick(second))
  {
    EndedThenLateFinally(s, body, outcome, now);
    StaleClearAfterClick(Finally(Tick(WorkerTail(s, body, outcome, now))), link, clipboard, later, r, urlparse);
  }

  /** After the try block's events are handled, the finally block reads the flag as False and queues another clear. */
  lemma EndedThenLateFinally(s: Sched, body: seq<Event>, outcome: Outcome, now: real)
    requires ValidSched(s) && s.running.Some?
    requires forall i :: 0 <= i < |body| ==> BodyEvent(body[i])
    requires !(outcome.Raised? && Is429(outcome.msg))
    ensures var ended := Tick(WorkerTail(s, body, outcome, now));
            var f := Finally(ended);
            && !ended.isDownloading && ended.running.None?
            && !f.isDownloading && f.running.None? && f.limiter == s.limiter
            && f.uiQueue == [PasteButton, SetDownloading(false)]
  {
    var w := WorkerTail(s, body, outcome, now);
    WorkerTailValid(s, body, outcome, now);
    TickValid(w);
    TickDrains(w);
  }

  /** A click on an idle scheduler with a supported, non-empty link that the limiter allows starts a worker. */
  lemma IdleClickAdmits(s: Sched, link: string, clipboard: Option<string>, now: real, r: int,
                        urlparse: string -> Option<UrlParts>)
    requires !s.isDownloading && 1 <= r <= 6
    requires CheckAt(s.limiter, now).allowed
    requires link != ""
    requires IsSupportedUrl(NormalizeInputUrl(link), urlparse)
    requires IsSupportedUrl(NormalizeInputUrl(NormalizeInputUrl(link)), urlparse)
    ensures var t := Click(s, Some(link), clipboard, now, r, urlparse);
            && t.isDownloading && t.running == Some(NormalizeInputUrl(NormalizeInputUrl(link)))
            && t.uiQueue == s.uiQueue + [ProcessingButton()]
  {
    var s1 := CancelPending(s);
    var content := NormalizeInputUrl(link);
    assert Submit(s1, content, now, r, urlparse) == Admit(s1.(entryText := content), NormalizeInputUrl(content), now, r);
  }

  /** A click admitted behind a stale set_downloading(False) sees the next tick clear the flag while its worker runs. */
  lemma StaleClearAfterClick(f: Sched, link: string, clipboard: Option<string>, now: real, r: int,
                             urlparse: string -> Option<UrlParts>)
    requires !f.isDownloading && f.uiQueue == [PasteButton, SetDownloading(false)] && 1 <= r <= 6
    requires CheckAt(f.limiter, now).allowed
    requires link != ""
    requires IsSupportedUrl(NormalizeInputUrl(link), urlparse)
    requires IsSupportedUrl(NormalizeInputUrl(NormalizeInputUrl(link)), urlparse)
    ensures var second := Click(f, Some(link), clipboard, now, r, urlparse);
            && second.isDownloading && second.running.Some?
            && Tick(second).running.Some? && !Tick(second).isDownloading
            && !ValidSched(Tick(second))
  {
    IdleClickAdmits(f, link, clipboard, now, r, urlparse);
    StaleTick(Click(f, Some(link), clipboard, now, r, urlparse));
  }

  /** A tick over the stale clear and the new download's button leaves its worker running with the flag False. */
  lemma StaleTick(t: Sched)
    requires t.isDownloading && t.running.Some?
    requires t.uiQueue == [PasteButton, SetDownloading(false), ProcessingButton()]
    ensures Tick(t).running.Some? && !Tick(t).isDownloading && !ValidSched(Tick(t))
  {
    TickDrains(t);
    StaleClearWins(t.uiQueue);
  }

  /** The stale set_downloading(False) put ahead of a new download's button still clears the flag that download set. */
  lemma StaleClearWins(q: seq<Event>)
    requires q == [PasteButton, SetDownloading(false), ProcessingButton()]
    ensures !FlagAfter(true, q)
  {
    assert q == [PasteButton, SetDownloading(false)] + [ProcessingButton()];
    LastSetDownloadingWins(true, [PasteButton], false);
    FlagAfterAppend(true, [PasteButton, SetDownloading(false)], [ProcessingButton()]);
  }

  // ---------------------------------------------------------------------------
  // Admit, throttle, reject
  // ---------------------------------------------------------------------------

  /** A non-empty link is used as given: what the clipboard holds, or whether reading it raises, makes no difference. */
  lemma LinkOverridesClipboard(s: Sched, link: string, c1: Option<string>, c2: Option<string>, now: real, r: int,
                               urlparse: string -> Option<UrlParts>)
    requires link != "" && 1 <= r <= 6
    ensures Click(s, Some(link), c1, now, r, urlparse) == Click(s, Some(link), c2, now, r, urlparse)
  {
  }

  /**
   * An empty link is falsy, so once the limiter lets it through one_click_action reads
   * the clipboard as if no link were given. (A refusal differs: the retry keeps the link as given.)
   */
  lemma EmptyLinkReadsClipboard(s: Sched, clipboard: Option<string>, now: real, r: int,
                                urlparse: string -> Option<UrlParts>)
    requires 1 <= r <= 6 && CheckAt(s.limiter, now).allowed
    ensures Click(s, Some(""), clipboard, now, r, urlparse) == Click(s, None, clipboard, now, r, urlparse)
  {
  }

  /** Single flight: while the flag is set every entry point returns at once, changing nothing. */
  lemma BusyChangesNothing(s: Sched, link: Option<string>, data: string, clipboard: Option<string>,
                           now: real, r: int, urlparse: string -> Option<UrlParts>)
    requires s.isDownloading && 1 <= r <= 6
    ensures Click(s, link, clipboard, now, r, urlparse) == s
    ensures Drop(s, data, clipboard, now, r, urlparse) == s
    ensures Start(s, now, r, urlparse) == s
  {
  }

  /**
   * A refusal of the rate limiter schedules exactly one retry, at least a second
   * away and carrying the same link, and neither reads the link nor records an attempt.
   */
  lemma RefusalSchedulesRetry(s: Sched, link: Option<string>, clipboard: Option<string>, now: real, r: int,
                              urlparse: string -> Option<UrlParts>)
    requires ValidSched(s) && !s.isDownloading && 1 <= r <= 6
    requires !CheckAt(s.limiter, now).allowed
    ensures var t := Click(s, link, clipboard, now, r, urlparse);
      && |t.timers| == 1 && t.timers[0].delayMs >= 1000 && t.timers[0].link == link
      && t.timers[0].delayMs == RetrySeconds(CheckAt(s.limiter, now).wait) * 1000
      && t.retryAfterId == Some(t.timers[0].id)
      && t.limiter == s.limiter && t.running.None? && t.uiQueue == s.uiQueue && t.entryText == s.entryText
  {
    if s.retryAfterId.Some? {
      CancelValid(s);
    }
  }

  /** An unsupported link or clipboard text is turned away after the rate-limit check and records no attempt. */
  lemma UnsupportedRecordsNothing(s: Sched, link: Option<string>, clipboard: Option<string>, now: real, r: int,
                                  urlparse: string -> Option<UrlParts>)
    requires ValidSched(s) && !s.isDownloading && 1 <= r <= 6
    requires CheckAt(s.limiter, now).allowed && LinkSource(link, clipboard).Some?
    requires !IsSupportedUrl(NormalizeInputUrl(LinkSource(link, clipboard).value), urlparse)
    ensures var t := Click(s, link, clipboard, now, r, urlparse);
      && t == CancelPending(s)
      && t.limiter == s.limiter && !t.isDownloading && t.running.None? && t.timers == []
  {
    var s1 := CancelPending(s);
    CancelPendingValid(s);
    var content := NormalizeInputUrl(LinkSource(link, clipboard).value);
    assert Submit(s1, content, now, r, urlparse) == s1;
  }

  /** A click with nothing to read (clipboard_get raised) is caught: no attempt, no worker. */
  lemma ClipboardFailureRecordsNothing(s: Sched, clipboard: Option<string>, now: real, r: int,
                                       urlparse: string -> Option<UrlParts>)
    requires ValidSched(s) && !s.isDownloading && 1 <= r <= 6
    requires clipboard.None?
    ensures var t := Click(s, None, clipboard, now, r, urlparse);
      t.limiter == s.limiter && t.running.None? && t.uiQueue == s.uiQueue
  {
  }

  /**
   * An admitted click starts the download: the flag is set, the attempt recorded,
   * the button disabled, and the worker runs on the normalized content, normalized
   * once more by start_download.
   */
  lemma AdmittedStarts(s: Sched, link: Option<string>, clipboard: Option<string>, now: real, r: int,
                       urlparse: string -> Option<UrlParts>)
    requires ValidSched(s) && !s.isDownloading && 1 <= r <= 6
    requires CheckAt(s.limiter, now).allowed
    requires LinkSource(link, clipboard).Some?
    requires var content := NormalizeInputUrl(LinkSource(link, clipboard).value);
      IsSupportedUrl(content, urlparse) && IsSupportedUrl(NormalizeInputUrl(content), urlparse)
    ensures var t := Click(s, link, clipboard, now, r, urlparse);
      && t.isDownloading
      && t.running == Some(NormalizeInputUrl(NormalizeInputUrl(LinkSource(link, clipboard).value)))
      && t.limiter == AfterAttempt(s.limiter, now, r) && Stats(t.limiter) >= 1
      && t.uiQueue == s.uiQueue + [ProcessingButton()]
  {
    AttemptValid(s.limiter, now, r);
    if s.retryAfterId.Some? {
      CancelValid(s);
    }
  }

  /** The second normalization in start_download changes nothing for content without outer braces. */
  lemma SecondNormalizationHarmless(text: string)
    requires !HasOuterBraces(NormalizeInputUrl(text))
    ensures NormalizeInputUrl(NormalizeInputUrl(text)) == NormalizeInputUrl(text)
  {
    NormalizeFixpoint(NormalizeInputUrl(text));
  }

  /** A 429 error blocks downloads for the whole ten-minute penalty after the worker ends. */
  lemma TooManyRequestsBacksOff(s: Sched, body: seq<Event>, msg: string, now: real, t: real)
    requires s.running.Some? && Is429(msg)
    requires now <= t < now + PenaltySeconds as real
    ensures var after := Worker(s, body, Raised(msg), now);
      && after.limiter.backoffUntil == Some(now + PenaltySeconds as real)
      && CheckAt(after.limiter, t) == Verdict(false, now + PenaltySeconds as real - t)
  {
  }

  /** Any other error leaves the rate limiter alone and queues a progress label with the error truncated to 120 characters. */
  lemma OtherErrorNoBackoff(s: Sched, body: seq<Event>, msg: string, now: real)
    requires s.running.Some? && !Is429(msg)
    ensures Worker(s, body, Raised(msg), now).limiter == s.limiter
    ensures ErrorProgress(msg) in Worker(s, body, Raised(msg), now).uiQueue
    ensures ErrorProgress(msg).text == "❌ Lỗi: " + SafeTruncate(msg, 120)
    ensures |SafeTruncate(msg, 120)| <= 120
  {
    TruncateIdempotent(msg, 120);
    var q := Worker(s, body, Raised(msg), now).uiQueue;
    assert q[|s.uiQueue| + |body| + |ErrorEvents(msg)| - 5] == ErrorProgress(msg);
  }

  // ---------------------------------------------------------------------------
  // The window object
  // ---------------------------------------------------------------------------

  /** The scheduler part of the downloader window, changed in place by its methods. */
  class Downloader {
    var isDownloading: bool
    var retryAfterId: Option<nat>
    var timers: seq<Timer>
    var nextTimerId: nat
    var entryText: string
    var uiQueue: seq<Event>
    var handled: seq<Event>
    var running: Option<string>
    const rateLimiter: RateLimitManager
    const urlparse: string -> Option<UrlParts>

    function State(): Sched
      reads this, rateLimiter
    {
      Sched(isDownloading, retryAfterId, timers, nextTimerId, entryText, rateLimiter.State(),
            uiQueue, handled, running)
    }

    constructor (urlparse: string -> Option<UrlParts>)
      ensures State() == InitialSched() && fresh(rateLimiter) && this.urlparse == urlparse
    {
      isDownloading := false;
      retryAfterId := None;
      timers := [];
      nextTimerId := 0;
      entryText := "";
      uiQueue := [];
      handled := [];
      running := None;
      rateLimiter := new RateLimitManager();
      this.urlparse := urlparse;
    }

    /** ui */
    method Ui(e: Event)
      modifies this
      ensures State() == Put(old(State()), e)
    {
      uiQueue := uiQueue + [e];
    }

    /** _handle_ui_event, the branches that change scheduler state */
    method HandleUiEvent(e: Event)
      modifies this
      ensures State() == Handle(old(State()), e)
    {
      match e {
        case SetDownloading(v) =>
          isDownloading := v;
        case ResetUi(_) =>
          ResetUi();
        case _ =>
      }
      handled := handled + [e];
    }

    /** reset_ui, the scheduler part: empty the entry and clear the flag */
    method ResetUi()
      modifies this
      ensures State() == ResetUiNow(old(State()))
    {
      entryText := "";
      isDownloading := false;
    }

    /** _process_ui_queue: take events from the front until the queue is empty */
    method ProcessUiQueue()
      modifies this
      ensures State() == Tick(old(State()))
    {
      while uiQueue != []
        invariant HandleAll(State().(uiQueue := []), uiQueue) == Tick(old(State()))
        invariant rateLimiter.State() == old(rateLimiter.State())
        decreases |uiQueue|
      {
        var e := uiQueue[0];
        uiQueue := uiQueue[1..];
        HandleUiEvent(e);
      }
    }

    /** start_download */
    method StartDownload(now: real, r: int)
      requires 1 <= r <= 6
      modifies this, rateLimiter
      ensures State() == Start(old(State()), now, r, urlparse)
    {
      if isDownloading {
        return;
      }
      var url := NormalizeInputUrl(entryText);
      if !IsSupportedUrl(url, urlparse) {
        return;
      }
      ghost var s0 := State();
      assert Start(s0, now, r, urlparse) == Admit(s0, url, now, r);
      AdmitDownload(url, now, r);
    }

    /** The admitting half of start_download: MarkBusy, then LaunchWorker. */
    method AdmitDownload(url: string, now: real, r: int)
      requires 1 <= r <= 6
      modifies this, rateLimiter
      ensures State() == Admit(old(State()), url, now, r)
    {
      MarkBusy();
      LaunchWorker(url, now, r);
    }

    /** is_downloading = True and the PROCESSING button */
    method MarkBusy()
      modifies this
      ensures State() == MarkedBusy(old(State()))
    {
      isDownloading := true;
      uiQueue := uiQueue + [ProcessingButton()];
    }

    /** record_download_attempt and the worker thread; only reachable with the flag up */
    method LaunchWorker(url: string, now: real, r: int)
      requires isDownloading && 1 <= r <= 6
      modifies this, rateLimiter
      ensures State() == Launch(old(State()), url, now, r)
    {
      rateLimiter.RecordDownloadAttempt(now, r);
      running := Some(url);
    }

    /** one_click_action; clipboard is None when reading the clipboard raises */
    method OneClickAction(link: Option<string>, clipboard: Option<string>, now: real, r: int)
      requires 1 <= r <= 6
      modifies this, rateLimiter
      ensures State() == Click(old(State()), link, clipboard, now, r, urlparse)
    {
      if isDownloading {
        return;
      }
      CancelPendingRetry();
      var ok, wait := rateLimiter.CanDownload(now);
      if !ok {
        var waitS := RetrySeconds(wait);
        timers := timers + [Timer(nextTimerId, waitS * 1000, link)];
        retryAfterId := Some(nextTimerId);
        nextTimerId := nextTimerId + 1;
        return;
      }
      var text := LinkSource(link, clipboard);
      if text.None? {
        return;
      }
      SubmitContent(NormalizeInputUrl(text.value), now, r);
    }

    /** The after_cancel block of one_click_action and on_closing. */
    method CancelPendingRetry()
      modifies this
      ensures State() == CancelPending(old(State()))
    {
      if retryAfterId.Some? {
        timers := RemoveTimer(timers, retryAfterId.value);
        retryAfterId := None;
      }
    }

    /** The end of one_click_action: a supported content goes to the entry and to start_download. */
    method SubmitContent(content: string, now: real, r: int)
      requires 1 <= r <= 6
      modifies this, rateLimiter
      ensures State() == Submit(old(State()), content, now, r, urlparse)
    {
      if !IsSupportedUrl(content, urlparse) {
        return;
      }
      entryText := content;
      StartDownload(now, r);
    }

    /** on_drop */
    method OnDrop(data: string, clipboard: Option<string>, now: real, r: int)
      requires 1 <= r <= 6
      modifies this, rateLimiter
      ensures State() == Drop(old(State()), data, clipboard, now, r, urlparse)
    {
      if isDownloading {
        return;
      }
      OneClickAction(Some(NormalizeInputUrl(data)), clipboard, now, r);
    }

    /** The retry timer firing: the toolkit drops it and runs its callback. */
    method FireRetry(clipboard: Option<string>, now: real, r: int)
      requires timers != [] && 1 <= r <= 6
      modifies this, rateLimiter
      ensures State() == RetryFires(old(State()), clipboard, now, r, urlparse)
    {
      var link := timers[0].link;
      timers := timers[1..];
      OneClickAction(link, clipboard, now, r);
    }

    /** The end of download_video_worker, after its try block put `body`: the try block ends, then the finally block runs. */
    method FinishWorker(body: seq<Event>, outcome: Outcome, now: real)
      requires running.Some?
      modifies this, rateLimiter
      ensures State() == Worker(old(State()), body, outcome, now)
    {
      EndWorker(body, outcome, now);
      FinallyBlock();
    }

    /** The try block ending, with the success tail or the except block; the download is over. */
    method EndWorker(body: seq<Event>, outcome: Outcome, now: real)
      requires running.Some?
      modifies this, rateLimiter
      ensures State() == WorkerTail(old(State()), body, outcome, now)
    {
      uiQueue := uiQueue + body;
      match outcome {
        case Completed(fileName) =>
          SuccessTail(fileName);
        case Raised(msg) =>
          ExceptBlock(msg, now);
      }
      running := None;
    }

    /** The last lines of the try block after a finished download. */
    method SuccessTail(fileName: string)
      modifies this
      ensures State() == old(State()).(uiQueue := old(uiQueue) + SuccessEvents(Stats(old(State()).limiter), fileName))
    {
      var stats := rateLimiter.GetStats();
      uiQueue := uiQueue + SuccessEvents(stats, fileName);
    }

    /** The except block: its events, and the 429 penalty through punish_backoff. */
    method ExceptBlock(msg: string, now: real)
      modifies this, rateLimiter
      ensures State() == old(State()).(uiQueue := old(uiQueue) + ErrorEvents(msg),
                                        limiter := if Is429(msg) then AfterPunish(old(State()).limiter, now, PenaltySeconds)
                                                   else old(State()).limiter)
    {
      uiQueue := uiQueue + ErrorEvents(msg);
      if Is429(msg) {
        rateLimiter.PunishBackoff(now, PenaltySeconds);
      }
    }

    /** The finally block, reading the busy flag as it stands when it runs. */
    method FinallyBlock()
      modifies this
      ensures State() == Finally(old(State()))
    {
      if !isDownloading {
        uiQueue := uiQueue + [PasteButton, SetDownloading(false)];
      }
    }

    /** on_closing, without saving the window position */
    method OnClosing()
      modifies this
      ensures State() == Closing(old(State()))
    {
      CancelPendingRetry();
    }
  }
}

=== FILE: Strings.dfy ===
/**
 * Python string primitives used by the downloader's helpers: the whitespace set
 * of str.isspace(), strip(), find(), split(sep), the `in` test on substrings,
 * startswith/endswith and the "non-blank" filter of a list comprehension.
 */
module Strings {

  /** The characters Python's str.isspace(), str.strip(), str.split() and int() treat as whitespace. */
  predicate IsSpace(c: char) {
    || c == ' ' || ('\t' <= c <= '\r') || ('\U{1C}' <= c <= '\U{1F}')
    || c == '\U{85}' || c == '\U{A0}' || c == '\U{1680}' || ('\U{2000}' <= c <= '\U{200A}')
    || c == '\U{2028}' || c == '\U{2029}' || c == '\U{202F}' || c == '\U{205F}' || c == '\U{3000}'
  }

  /** s.lstrip(): drops the leading whitespace and nothing else. */
  function TrimLeft(s: string): (r: string)
    ensures |r| <= |s| && r == s[|s| - |r|..]
    ensures r == [] || !IsSpace(r[0])
    ensures forall i :: 0 <= i < |s| - |r| ==> IsSpace(s[i])
  {
    if s != [] && IsSpace(s[0]) then TrimLeft(s[1..]) else s
  }

  /** s.rstrip(): drops the trailing whitespace and nothing else. */
  function TrimRight(s: string): (r: string)
    ensures |r| <= |s| && r == s[..|r|]
    ensures r == [] || !IsSpace(r[|r| - 1])
    ensures forall i :: |r| <= i < |s| ==> IsSpace(s[i])
  {
    if s != [] && IsSpace(s[|s| - 1]) then TrimRight(s[..|s| - 1]) else s
  }

  /** s.strip() */
  function Strip(s: string): (r: string)
    ensures |r| <= |s|
    ensures r == [] || (!IsSpace(r[0]) && !IsSpace(r[|r| - 1]))
  {
    TrimRight(TrimLeft(s))
  }

  /** A string with no whitespace at either end is its own strip(). */
  lemma StripUnchanged(s: string)
    requires s == [] || (!IsSpace(s[0]) && !IsSpace(s[|s| - 1]))
    ensures Strip(s) == s
  {
  }

  /** s.find(c, from): the first index at or after `from` holding c, or -1. */
  function Find(s: string, c: char, from: nat): (i: int)
    ensures i == -1 || (from <= i < |s| && s[i] == c)
    ensures forall k :: from <= k < |s| && (i == -1 || k < i) ==> s[k] != c
    decreases |s| - from
  {
    if from >= |s| then -1 else if s[from] == c then from else Find(s, c, from + 1)
  }

  /** s.split(sep) for a one-character separator: never empty, and no piece holds the separator. */
  function SplitOn(s: string, sep: char): (parts: seq<string>)
    ensures |parts| >= 1
    ensures forall k :: 0 <= k < |parts| ==> sep !in parts[k]
    ensures |parts[0]| <= |s| && parts[0] == s[..|parts[0]|]
    ensures |parts[0]| < |s| ==> s[|parts[0]|] == sep
    decreases |s|
  {
    var i := Find(s, sep, 0);
    if i == -1 then [s] else [s[..i]] + SplitOn(s[i + 1..], sep)
  }

  lemma SplitOnNoSeparator(a: string, sep: char)
    requires sep !in a
    ensures SplitOn(a, sep) == [a]
  {
    assert Find(a, sep, 0) == -1;
  }

  /** Splitting at the first separator: the piece before it, then the split of the rest. */
  lemma SplitOnFirst(a: string, sep: char, b: string)
    requires sep !in a
    ensures SplitOn(a + [sep] + b, sep) == [a] + SplitOn(b, sep)
  {
    var s := a + [sep] + b;
    assert Find(s, sep, 0) == |a| by {
      assert s[|a|] == sep;
      assert forall k :: 0 <= k < |a| ==> s[k] == a[k];
    }
    assert s[..|a|] == a && s[|a| + 1..] == b;
  }

  predicate StartsWith(s: string, prefix: string) {
    |prefix| <= |s| && s[..|prefix|] == prefix
  }

  predicate EndsWith(s: string, suffix: string) {
    |suffix| <= |s| && s[|s| - |suffix|..] == suffix
  }

  /** Python's `sub in s` on strings. */
  predicate Contains(s: string, sub: string)
    decreases |s|
  {
    StartsWith(s, sub) || (s != [] && Contains(s[1..], sub))
  }

  /** sub occurs in s starting at index i. */
  predicate OccursAt(s: string, sub: string, i: nat) {
    i + |sub| <= |s| && s[i..i + |sub|] == sub
  }

  /** `sub in s` holds exactly when sub occurs at some position of s. */
  lemma {:induction false} ContainsIff(s: string, sub: string)
    ensures Contains(s, sub) <==> exists i: nat :: OccursAt(s, sub, i)
  {
    if StartsWith(s, sub) {
      assert OccursAt(s, sub, 0);
    } else if s == [] {
      assert forall i: nat :: !OccursAt(s, sub, i);
    } else {
      ContainsIff(s[1..], sub);
      if Contains(s[1..], sub) {
        var i: nat :| OccursAt(s[1..], sub, i);
        assert s[i + 1..i + 1 + |sub|] == s[1..][i..i + |sub|];
        assert OccursAt(s, sub, i + 1);
      } else {
        forall i: nat | OccursAt(s, sub, i)
          ensures false
        {
          if i != 0 {
            assert s[i..i + |sub|] == s[1..][i - 1..i - 1 + |sub|];
            assert OccursAt(s[1..], sub, i - 1);
          }
        }
      }
    }
  }

  /** The characters of s that are not whitespace, in order. */
  function NonSpace(s: string): (r: string)
    ensures |r| <= |s|
    ensures forall k :: 0 <= k < |r| ==> !IsSpace(r[k])
  {
    if s == [] then [] else (if IsSpace(s[0]) then [] else [s[0]]) + NonSpace(s[1..])
  }

  lemma {:induction false} NonSpaceAppend(a: string, b: string)
    ensures NonSpace(a + b) == NonSpace(a) + NonSpace(b)
  {
    if a == [] {
      assert a + b == b;
    } else {
      assert (a + b)[1..] == a[1..] + b;
      NonSpaceAppend(a[1..], b);
    }
  }

  lemma {:induction false} NonSpaceOfWord(w: string)
    requires forall k :: 0 <= k < |w| ==> !IsSpace(w[k])
    ensures NonSpace(w) == w
  {
    if w != [] {
      NonSpaceOfWord(w[1..]);
    }
  }

  lemma {:induction false} NonSpaceOfBlank(w: string)
    requires forall k :: 0 <= k < |w| ==> IsSpace(w[k])
    ensures NonSpace(w) == []
  {
    if w != [] {
      NonSpaceOfBlank(w[1..]);
    }
  }

  lemma TrimLeftKeepsText(s: string)
    ensures NonSpace(TrimLeft(s)) == NonSpace(s)
  {
    var l := TrimLeft(s);
    var blank := s[..|s| - |l|];
    assert s == blank + l;
    NonSpaceAppend(blank, l);
    NonSpaceOfBlank(blank);
  }

  lemma TrimRightKeepsText(s: string)
    ensures NonSpace(TrimRight(s)) == NonSpace(s)
  {
    var r := TrimRight(s);
    var blank := s[|r|..];
    assert s == r + blank;
    NonSpaceAppend(r, blank);
    NonSpaceOfBlank(blank);
  }

  /** strip() removes whitespace only. */
  lemma StripKeepsText(s: string)
    ensures NonSpace(Strip(s)) == NonSpace(s)
  {
    TrimLeftKeepsText(s);
    TrimRightKeepsText(TrimLeft(s));
  }

  /** [p for p in ps if p.strip() != ""] */
  function NonBlank(ps: seq<string>): (r: seq<string>)
    ensures |r| <= |ps|
    ensures forall k :: 0 <= k < |r| ==> Strip(r[k]) != []
  {
    if ps == [] then [] else (if Strip(ps[0]) != [] then [ps[0]] else []) + NonBlank(ps[1..])
  }

  /** One part is kept exactly when it is not blank. */
  lemma NonBlankSingle(p: string)
    ensures NonBlank([p]) == if Strip(p) != [] then [p] else []
  {
    assert [p][1..] == [];
  }

  /** Filtering a list is deciding its first part, then filtering the rest. */
  lemma NonBlankCons(p: string, ps: seq<string>)
    ensures NonBlank([p] + ps) == (if Strip(p) != [] then [p] else []) + NonBlank(ps)
  {
    assert ([p] + ps)[0] == p && ([p] + ps)[1..] == ps;
  }

  /** Regrouping h + (y + z) as (h + y) + z, stated on names so no element is inspected. */
  lemma Regroup<T>(lhs: seq<T>, h: seq<T>, x: seq<T>, y: seq<T>, z: seq<T>, rhs: seq<T>)
    requires lhs == h + x && x == y + z && rhs == h + y
    ensures lhs == rhs + z
  {
  }

  /** The filter works part by part: filtering a + b is filtering a, then b, in order. */
  lemma {:induction false} NonBlankAppend(a: seq<string>, b: seq<string>)
    ensures NonBlank(a + b) == NonBlank(a) + NonBlank(b)
    decreases |a|
  {
    if a == [] {
      assert a + b == b;
    } else {
      var p, t := a[0], a[1..];
      assert a == [p] + t && a + b == [p] + (t + b);
      NonBlankCons(p, t + b);
      NonBlankCons(p, t);
      NonBlankAppend(t, b);
      Regroup(NonBlank(a + b), if Strip(p) != [] then [p] else [], NonBlank(t + b), NonBlank(t), NonBlank(b), NonBlank(a));
    }
  }
}

=== FILE: UrlInput.dfy ===
/**
 * The URL input boundary: normalize_input_url (trim, drop one outer pair of
 * braces, collapse whitespace) and is_supported_url (host allow-list by exact
 * name or dot-suffix).
 */
module UrlInput {
  import opened Wrappers
  import opened Strings

  /** One element of str.split(): non-empty and free of whitespace. */
  predicate IsWord(w: string) {
    w != [] && forall k :: 0 <= k < |w| ==> !IsSpace(w[k])
  }

  /** Length of the run of non-whitespace at the front of s. */
  function WordLen(s: string): (n: nat)
    ensures n <= |s|
    ensures forall k :: 0 <= k < n ==> !IsSpace(s[k])
    ensures n < |s| ==> IsSpace(s[n])
  {
    if s == [] || IsSpace(s[0]) then 0 else 1 + WordLen(s[1..])
  }

  /** s.split() with no separator: the maximal runs of non-whitespace, in order. */
  function Words(s: string): (ws: seq<string>)
    ensures forall k :: 0 <= k < |ws| ==> IsWord(ws[k])
    decreases |s|
  {
    if s == [] then []
    else if IsSpace(s[0]) then Words(s[1..])
    else
      var n := WordLen(s);
      [s[..n]] + Words(s[n..])
  }

  /** " ".join(ws) */
  function JoinSpace(ws: seq<string>): string {
    if ws == [] then "" else if |ws| == 1 then ws[0] else ws[0] + " " + JoinSpace(ws[1..])
  }

  /** No whitespace at either end, and between words exactly one plain space. */
  predicate Collapsed(s: string) {
    && (s == [] || (!IsSpace(s[0]) && !IsSpace(s[|s| - 1])))
    && (forall k :: 0 <= k < |s| && IsSpace(s[k]) ==> s[k] == ' ')
    && (forall i, j :: 0 <= i < |s| && 0 <= j < |s| && j == i + 1 && IsSpace(s[i]) ==> !IsSpace(s[j]))
  }

  /** Joining words with single spaces gives a collapsed string, empty only for no words. */
  lemma {:induction false} JoinCollapsed(ws: seq<string>)
    requires forall k :: 0 <= k < |ws| ==> IsWord(ws[k])
    ensures Collapsed(JoinSpace(ws))
    ensures JoinSpace(ws) == [] <==> ws == []
  {
    if |ws| >= 2 {
      JoinCollapsed(ws[1..]);
      var w, j := ws[0], JoinSpace(ws[1..]);
      var s := w + " " + j;
      assert IsWord(w);
      forall k | 0 <= k < |s| - 1 && IsSpace(s[k])
        ensures !IsSpace(s[k + 1])
      {
        assert k == |w| || k > |w|;
        if k > |w| {
          assert s[k] == j[k - |w| - 1] && s[k + 1] == j[k - |w|];
        }
      }
      forall k | 0 <= k < |s| && IsSpace(s[k])
        ensures s[k] == ' '
      {
        if k > |w| {
          assert s[k] == j[k - |w| - 1];
        }
      }
    }
  }

  /** A word followed by nothing or by whitespace is the whole first run. */
  lemma {:induction false} WordLenOfWord(w: string, rest: string)
    requires IsWord(w)
    requires rest == [] || IsSpace(rest[0])
    ensures WordLen(w + rest) == |w|
  {
    if |w| > 1 {
      assert (w + rest)[1..] == w[1..] + rest;
      WordLenOfWord(w[1..], rest);
    } else {
      assert (w + rest)[1..] == rest;
    }
  }

  /** split() of a word followed by nothing or by whitespace starts with that word. */
  lemma WordsCons(w: string, rest: string)
    requires IsWord(w)
    requires rest == [] || IsSpace(rest[0])
    ensures Words(w + rest) == [w] + Words(rest)
  {
    var s := w + rest;
    assert s[0] == w[0];
    WordLenOfWord(w, rest);
    assert s[..|w|] == w && s[|w|..] == rest;
  }

  /** split() ignores a leading whitespace character. */
  lemma WordsSkipSpace(c: char, s: string)
    requires IsSpace(c)
    ensures Words([c] + s) == Words(s)
  {
    assert ([c] + s)[1..] == s;
  }

  /** split() undoes " ".join() on words: the round trip of the whitespace collapse. */
  lemma {:induction false} WordsOfJoin(ws: seq<string>)
    requires forall k :: 0 <= k < |ws| ==> IsWord(ws[k])
    ensures Words(JoinSpace(ws)) == ws
  {
    if ws == [] {
    } else if |ws| == 1 {
      WordsCons(ws[0], []);
      assert ws[0] + [] == ws[0];
    } else {
      var j := JoinSpace(ws[1..]);
      assert ws[0] + " " + j == ws[0] + ([' '] + j);
      WordsCons(ws[0], [' '] + j);
      WordsSkipSpace(' ', j);
      WordsOfJoin(ws[1..]);
    }
  }

  /** The part of a collapsed string after a space is collapsed. */
  lemma CollapsedAfterSpace(s: string, n: nat)
    requires Collapsed(s) && n < |s| && IsSpace(s[n])
    ensures n + 1 < |s| && Collapsed(s[n + 1..])
  {
    var rest := s[n + 1..];
    forall k | 0 <= k < |rest| - 1 && IsSpace(rest[k])
      ensures !IsSpace(rest[k + 1])
    {
      assert rest[k] == s[n + 1 + k] && rest[k + 1] == s[n + 2 + k];
    }
  }

  /** In a collapsed string the first word ends at a plain space, if it ends before the string does. */
  lemma {:induction false} FirstWordThenSpace(s: string, n: nat)
    requires Collapsed(s) && s != [] && n == WordLen(s) && n < |s|
    ensures s[n] == ' ' && IsWord(s[..n])
  {
  }

  lemma {:induction false} SplitAround(s: string, n: nat)
    requires n < |s|
    ensures s == s[..n] + ([s[n]] + s[n + 1..])
  {
    assert s[n..] == [s[n]] + s[n + 1..];
    assert s == s[..n] + s[n..];
  }

  lemma {:induction false} WordsAfterWord(s: string, n: nat)
    requires n < |s| && IsSpace(s[n]) && IsWord(s[..n])
    requires s == s[..n] + ([s[n]] + s[n + 1..])
    ensures Words(s) == [s[..n]] + Words(s[n + 1..])
  {
    WordsCons(s[..n], [s[n]] + s[n + 1..]);
    WordsSkipSpace(s[n], s[n + 1..]);
  }

  /** A collapsed string that goes on after its first word: that word, one space, the rest. */
  lemma {:induction false} WordsAtSpace(s: string, n: nat)
    requires Collapsed(s) && s != [] && n == WordLen(s) && n < |s|
    ensures s[n] == ' '
    ensures Words(s) == [s[..n]] + Words(s[n + 1..])
  {
    FirstWordThenSpace(s, n);
    SplitAround(s, n);
    WordsAfterWord(s, n);
  }

  /** Joining a word before a non-empty list of words puts one space between. */
  lemma {:induction false} JoinSpaceCons(w: string, ws: seq<string>)
    requires ws != []
    ensures JoinSpace([w] + ws) == w + " " + JoinSpace(ws)
  {
    assert ([w] + ws)[1..] == ws;
  }

  /** Text that starts with a word has a first word. */
  lemma {:induction false} WordsNonEmpty(t: string)
    requires t != [] && !IsSpace(t[0])
    ensures Words(t) != []
  {
  }

  /** The step of the round trip: the first word, a space, and a rest that already round-trips. */
  lemma {:induction false} JoinOfWordsStep(s: string, n: nat)
    requires n < |s| && s[n] == ' '
    requires Words(s) == [s[..n]] + Words(s[n + 1..]) && n + 1 < |s| && !IsSpace(s[n + 1])
    requires JoinSpace(Words(s[n + 1..])) == s[n + 1..]
    ensures JoinSpace(Words(s)) == s
  {
    var w, rest := s[..n], s[n + 1..];
    WordsNonEmpty(rest);
    SplitAround(s, n);
    JoinSpaceCons(w, Words(rest));
    assert w + " " + rest == w + ([s[n]] + rest);
  }

  /** A single word joins back to itself. */
  lemma {:induction false} JoinOfOneWord(s: string)
    requires s != [] && WordLen(s) == |s|
    ensures JoinSpace(Words(s)) == s
  {
    assert s == s + [];
    WordsCons(s, []);
  }

  /** " ".join(s.split()) is the identity on a collapsed string. */
  lemma {:induction false} JoinOfWords(s: string)
    requires Collapsed(s)
    ensures JoinSpace(Words(s)) == s
    decreases |s|
  {
    if s != [] {
      var n := WordLen(s);
      if n == |s| {
        JoinOfOneWord(s);
      } else {
        WordsAtSpace(s, n);
        CollapsedAfterSpace(s, n);
        JoinOfWords(s[n + 1..]);
        JoinOfWordsStep(s, n);
      }
    }
  }

  /** split() drops exactly the whitespace: its words, joined, keep every other character in order. */
  lemma {:induction false} JoinOfWordsKeepsText(s: string)
    ensures NonSpace(JoinSpace(Words(s))) == NonSpace(s)
    decreases |s|
  {
    if s == [] {
    } else if IsSpace(s[0]) {
      JoinOfWordsKeepsText(s[1..]);
    } else {
      var n := WordLen(s);
      var w, rest := s[..n], s[n..];
      assert s == w + rest;
      NonSpaceAppend(w, rest);
      NonSpaceOfWord(w);
      JoinOfWordsKeepsText(rest);
      var ws := Words(rest);
      if ws != [] {
        assert JoinSpace(Words(s)) == w + " " + JoinSpace(ws);
        NonSpaceAppend(w + " ", JoinSpace(ws));
        NonSpaceAppend(w, " ");
      }
    }
  }

  /** Python's s[1:-1]: the text between the braces of a string that starts with '{' and ends with '}'. */
  function Inner(s: string): string {
    if |s| >= 2 then s[1..|s| - 1] else ""
  }

  predicate HasOuterBraces(s: string) {
    StartsWith(s, "{") && EndsWith(s, "}")
  }

  /** normalize_input_url */
  function NormalizeInputUrl(raw: string): (r: string)
    ensures raw == [] ==> r == []
    ensures Collapsed(r)
  {
    if raw == [] then ""
    else
      var s := Strip(raw);
      var s' := if HasOuterBraces(s) then Strip(Inner(s)) else s;
      JoinCollapsed(Words(s'));
      JoinSpace(Words(s'))
  }

  /** Without an outer pair of braces, normalization removes whitespace only. */
  lemma NormalizeUnbracedKeepsText(raw: string)
    requires !HasOuterBraces(Strip(raw))
    ensures NonSpace(NormalizeInputUrl(raw)) == NonSpace(raw)
  {
    if raw != [] {
      StripKeepsText(raw);
      JoinOfWordsKeepsText(Strip(raw));
    }
  }

  lemma NonSpaceInBraces(i: string)
    ensures NonSpace("{" + i + "}") == "{" + NonSpace(i) + "}"
  {
    NonSpaceAppend("{" + i, "}");
    NonSpaceAppend("{", i);
  }

  /** A string wrapped in braces is the brace, its inner text, and the brace. */
  lemma BracesAroundInner(s: string)
    requires HasOuterBraces(s)
    ensures |s| >= 2 && s == "{" + Inner(s) + "}"
  {
    assert s[0] == '{' && s[|s| - 1] == '}';
  }

  /** With an outer pair of braces, normalization removes whitespace and exactly that pair. */
  lemma NormalizeBracedKeepsText(raw: string)
    requires HasOuterBraces(Strip(raw))
    ensures NonSpace(raw) == "{" + NonSpace(NormalizeInputUrl(raw)) + "}"
  {
    var s := Strip(raw);
    var i := Inner(s);
    var r := NormalizeInputUrl(raw);
    assert r == JoinSpace(Words(Strip(i)));
    JoinOfWordsKeepsText(Strip(i));
    StripKeepsText(i);
    assert NonSpace(r) == NonSpace(i);
    StripKeepsText(raw);
    BracesAroundInner(s);
    NonSpaceInBraces(i);
  }

  /** A collapsed string not wrapped in braces is already normal. */
  lemma NormalizeFixpoint(s: string)
    requires Collapsed(s) && !HasOuterBraces(s)
    ensures NormalizeInputUrl(s) == s
  {
    if s != [] {
      StripUnchanged(s);
      JoinOfWords(s);
    }
  }

  /** Only one pair of braces goes per call, so normalizing is not idempotent. */
  lemma NormalizeNotIdempotent()
    ensures NormalizeInputUrl("{{x}}") == "{x}"
    ensures NormalizeInputUrl(NormalizeInputUrl("{{x}}")) == "x"
  {
    assert IsWord("{{x}}") && HasOuterBraces("{{x}}") && "{{x}}"[1..4] == "{x}";
    assert IsWord("{x}") && HasOuterBraces("{x}") && "{x}"[1..2] == "x";
    assert IsWord("x");
    BracedWord("{{x}}", "{x}");
    BracedWord("{x}", "x");
  }

  /** A brace-wrapped word normalizes to what is inside the braces. */
  lemma BracedWord(s: string, w: string)
    requires IsWord(s) && HasOuterBraces(s) && IsWord(w) && |s| >= 2 && w == s[1..|s| - 1]
    ensures NormalizeInputUrl(s) == w
  {
    StripUnchanged(s);
    StripUnchanged(w);
    assert w == w + [];
    WordsCons(w, []);
  }

  // ---------------------------------------------------------------------------
  // is_supported_url
  // ---------------------------------------------------------------------------

  /** The two components of urlparse's result that the check reads. */
  datatype UrlParts = UrlParts(scheme: string, netloc: string)

  /** str.lower() on one character: ASCII capitals, and the Kelvin sign, whose lower case is 'k'. */
  function LowerChar(c: char): char {
    if 'A' <= c <= 'Z' then (c as int + 32) as char
    else if c == '\U{212A}' then 'k'
    else c
  }

  /**
   * str.lower(): no ASCII capital is left; a capital becomes its small letter and the
   * Kelvin sign becomes 'k'; every other character is kept where it was.
   */
  function Lower(s: string): (r: string)
    ensures |r| == |s|
    ensures forall k :: 0 <= k < |r| ==> !('A' <= r[k] <= 'Z')
    ensures forall k :: 0 <= k < |s| && 'A' <= s[k] <= 'Z' ==> r[k] as int == s[k] as int + 32
    ensures forall k :: 0 <= k < |s| && s[k] == '\U{212A}' ==> r[k] == 'k'
    ensures forall k :: 0 <= k < |s| && !('A' <= s[k] <= 'Z') && s[k] != '\U{212A}' ==> r[k] == s[k]
  {
    seq(|s|, k requires 0 <= k < |s| => LowerChar(s[k]))
  }

  /** Lower-casing twice is lower-casing once. */
  lemma LowerIdempotent(s: string)
    ensures Lower(Lower(s)) == Lower(s)
  {
  }

  /** Lower-casing works character by character, so it distributes over concatenation. */
  lemma LowerAppend(a: string, b: string)
    ensures Lower(a + b) == Lower(a) + Lower(b)
  {
  }

  /** Lower-casing neither makes nor removes a colon. */
  lemma LowerKeepsColons(s: string)
    ensures forall k :: 0 <= k < |s| ==> (Lower(s)[k] == ':' <==> s[k] == ':')
  {
  }

  /** netloc.lower().split(":")[0]: lower-cased, without the port, holding no ':' and no capital. */
  function HostOf(netloc: string): (host: string)
    ensures ':' !in host
    ensures forall k :: 0 <= k < |host| ==> !('A' <= host[k] <= 'Z')
    ensures |host| <= |netloc| && host == Lower(netloc)[..|host|]
    ensures |host| < |netloc| ==> netloc[|host|] == ':'
    ensures ':' !in netloc ==> host == Lower(netloc)
  {
    var l := Lower(netloc);
    var host := SplitOn(l, ':')[0];
    LowerKeepsColons(netloc);
    host
  }

  /** host_is: the host is the domain itself or ends with "." + domain. */
  predicate HostIs(host: string, domain: string) {
    host == domain || EndsWith(host, "." + domain)
  }

  /** The allow-list, in the order the source tests it. */
  predicate HostAllowed(host: string) {
    || HostIs(host, "youtube.com")
    || HostIs(host, "youtu.be")
    || HostIs(host, "tiktok.com")
    || HostIs(host, "facebook.com")
    || HostIs(host, "fb.watch")
    || HostIs(host, "pinterest.com")
    || HostIs(host, "pin.it")
  }

  /**
   * is_supported_url, with urlparse given as `urlparse` (None when it raises):
   * false for the empty string, a failed parse, or an empty scheme or netloc;
   * otherwise whether the host is allowed.
   */
  predicate IsSupportedUrl(url: string, urlparse: string -> Option<UrlParts>) {
    && url != []
    && urlparse(url).Some?
    && urlparse(url).value.scheme != []
    && urlparse(url).value.netloc != []
    && HostAllowed(HostOf(urlparse(url).value.netloc))
  }

  /** The allow-list of is_supported_url, in the order it is tried. */
  const AllowedDomains: seq<string> :=
    ["youtube.com", "youtu.be", "tiktok.com", "facebook.com", "fb.watch", "pinterest.com", "pin.it"]

  /** Seven alternatives hold exactly when one of the seven listed domains matches. */
  lemma {:induction false} OneOfSeven(host: string, d: seq<string>)
    requires |d| == 7
    ensures (|| HostIs(host, d[0]) || HostIs(host, d[1]) || HostIs(host, d[2]) || HostIs(host, d[3])
             || HostIs(host, d[4]) || HostIs(host, d[5]) || HostIs(host, d[6]))
            <==> exists k :: 0 <= k < |d| && HostIs(host, d[k])
  {
    forall k | 0 <= k < |d| && HostIs(host, d[k])
      ensures || HostIs(host, d[0]) || HostIs(host, d[1]) || HostIs(host, d[2]) || HostIs(host, d[3])
              || HostIs(host, d[4]) || HostIs(host, d[5]) || HostIs(host, d[6])
    {
      if k == 0 {} else if k == 1 {} else if k == 2 {} else if k == 3 {}
      else if k == 4 {} else if k == 5 {} else {}
    }
  }

  /** A host is allowed exactly when it is, or is a subdomain of, some listed domain. */
  lemma HostAllowedIff(host: string)
    ensures HostAllowed(host) <==> exists k :: 0 <= k < |AllowedDomains| && HostIs(host, AllowedDomains[k])
  {
    OneOfSeven(host, AllowedDomains);
  }

  /**
   * A URL is supported exactly when it is non-empty, parses with a non-empty scheme
   * and netloc, and its lower-cased, port-stripped host matches a listed domain.
   */
  lemma SupportedUrlIff(url: string, urlparse: string -> Option<UrlParts>)
    ensures IsSupportedUrl(url, urlparse) <==>
      && url != []
      && urlparse(url).Some? && urlparse(url).value.scheme != [] && urlparse(url).value.netloc != []
      && exists k :: 0 <= k < |AllowedDomains| && HostIs(HostOf(urlparse(url).value.netloc), AllowedDomains[k])
  {
    if urlparse(url).Some? {
      HostAllowedIff(HostOf(urlparse(url).value.netloc));
    }
  }

  /** Every subdomain of an accepted host is accepted for the same domain. */
  lemma SubdomainAccepted(host: string, domain: string, sub: string)
    requires HostIs(host, domain)
    ensures HostIs(sub + "." + host, domain)
  {
    var h := sub + "." + host;
    var suf := "." + domain;
    if host == domain {
      assert h[|h| - |suf|..] == suf;
    } else {
      assert h[|h| - |suf|..] == host[|host| - |suf|..];
    }
  }

  lemma EndsWithAppend(p: string, suffix: string)
    ensures EndsWith(p + suffix, suffix)
  {
    assert (p + suffix)[|p|..] == suffix;
  }

  /** A subdomain of an allow-listed domain is accepted. */
  lemma SubdomainExample()
    ensures HostAllowed("m.youtube.com")
  {
    var d := "youtube.com";
    assert "m.youtube.com" == "m" + ("." + d);
    EndsWithAppend("m", "." + d);
  }

  /**
   * A domain only counts at a label boundary: a host that merely ends in the
   * domain, with no dot before it, is not that domain.
   */
  lemma DotBoundary(p: string, domain: string)
    requires p != [] && p[|p| - 1] != '.'
    ensures !HostIs(p + domain, domain)
  {
    var h := p + domain;
    assert h[|p| - 1..][0] == p[|p| - 1] != ("." + domain)[0];
  }

  lemma LookalikeRejected()
    ensures !HostIs("notyoutube.com", "youtube.com")
  {
    DotBoundary("not", "youtube.com");
    assert "not" + "youtube.com" == "notyoutube.com";
  }

  /** Lower-casing the netloc first, or appending a port, does not change the host. */
  lemma HostIgnoresCaseAndPort(netloc: string, port: string)
    requires ':' !in netloc
    ensures HostOf(Lower(netloc)) == HostOf(netloc)
    ensures HostOf(netloc + ":" + port) == HostOf(netloc)
  {
    LowerIdempotent(netloc);
    var l := Lower(netloc);
    LowerKeepsColons(netloc);
    assert ':' !in l by {
      forall k | 0 <= k < |l| ensures l[k] != ':' {
        assert netloc[k] != ':';
      }
    }
    LowerAppend(netloc + ":", port);
    LowerAppend(netloc, ":");
    assert Lower(netloc + ":" + port) == l + [':'] + Lower(port);
    SplitOnFirst(l, ':', Lower(port));
    SplitOnNoSeparator(l, ':');
  }
}

=== FILE: Wrappers.dfy ===
/** The optional value that stands for Python's `None` and for an exception caught and turned into a default. */
module Wrappers {
  datatype Option<+T> = None | Some(value: T)
}
